=== FILE: README.md ===
# Energy Optimizer — a Dafny model of its core

Energy Optimizer is a React client with a small Express/Sequelize backend. It
rates a building's energy efficiency from the monthly consumption and floor
area, estimates savings, CO2 and payback, and stores reports. Guests keep
reports in browser storage for 24 hours. Registered users keep them on the
server, where they can be listed, updated, deleted and shared. Paid plans
lift a report quota.

This project models the logic of that core as pure Dafny functions over
immutable data and proves what each part promises:

- `Scoring` is the five-tier classifier, the savings, payback and CO2
  formulas, and the tip rules. JavaScript division by a zero area is modelled
  as `Infinity`/`NaN`.
  - `CalculatorPage`, `EnergyOptimizer` and `ReportModel` are the three
    copies of the classifier in the program.
  - `ScoringCopies` proves that the three copies agree.
- `Storage` is `StorageManager`: browser storage is a `map<string, Value>`
  and time is an integer count of milliseconds. Guest saves are wrapped with
  a 24-hour expiry and read lazily. Registration migrates the reports.
- `Users` is the `User` model: defaults, `updateStats` and `toJSON`.
- `ReportsController` is the report lifecycle. Rows are a sequence in
  insertion order with an auto-increment id, and each user's stats live in
  the users table.
- `PremiumLimits` is the `usePremiumLimits` hook.
- `Monetization` covers `getUserLevel` and `calculateReportValue`.
- `RegisterPage` covers the password-strength meter and the terms guard.
- `CalculatorForm` is the three-step wizard.
- `PricingPage` and `SharedLandingPage` are the two countdown reducers and
  the referrer default.
- `Analytics` covers share tracking, the bonus-month rule, the per-user
  overview and the super-admin guard.
- `Common` holds `Option`/`Result` and JavaScript values as they arrive in
  a request body (`Raw`), with truthiness and `parseFloat`.
- `Records` holds the client-side report records.

Several inputs become explicit parameters:

- the current time `now`;
- the default title (a locale date);
- the public id that `shareReport` would draw at random;
- the answer to a `window.confirm` prompt.

## Model

| member | source | states |
|---|---|---|
| Scoring.Divide | src/pages/CalculatorPage.js:99 | consumption / area is the real quotient when the area is non-zero; a zero area gives a non-finite value, and NaN exactly for 0 / 0 |
| Scoring.ClassifyCascade | src/pages/CalculatorPage.js:101-109 | the cascade of strict `<` tests at 5, 10, 15, 20 picks the same tier as the five-band reference table, and always one of the five tiers |
| Scoring.ClassifyPartition | src/pages/CalculatorPage.js:101-109 | each ratio band [0,5), [5,10), [10,15), [15,20), [20,∞) maps to Ottimo, Buono, Medio, Scarso, Critico; a ratio of exactly 5, 10, 15 or 20 lands in the worse tier |
| Scoring.ClassifyNonFinite | src/pages/CalculatorPage.js:99-109 | with a zero area, `Infinity` and `NaN` fail every comparison and fall through to Critico; `-Infinity` is Ottimo |
| Scoring.ClassifyMonotone | src/pages/CalculatorPage.js:101-109 | a larger ratio never gives a higher score or a lower factor |
| Scoring.ScoreFactorAntitone | backend/src/models/Report.js:121-129 | among the five tiers, a higher score goes with a strictly lower factor, and equal scores mean the same tier |
| Scoring.RoundHalfUp | src/pages/CalculatorPage.js:117 | `Math.round`: the integer nearest to x, with halves rounded up |
| Scoring.SavingsPotential | src/pages/CalculatorPage.js:112-119 | monthly = bill·0.45·factor and annual = 12·monthly; percentage is 45·factor rounded, within 0..45 for a factor in [0,1]; monthly savings never exceed 45% of the bill |
| Scoring.PercentagePerTier | src/pages/CalculatorPage.js:117 | the advertised percentage per tier is 14, 23, 31 or 32, 41 and 45, always within [14, 45] |
| Scoring.Roi | src/pages/CalculatorPage.js:84 | payback years times the annual savings give back the investment; with zero savings the divisor falls back to 1 |
| Scoring.Co2FormulasDisagree | backend/src/controllers/reportsController.js:33 | the client formula consumption·0.5·12 is 40000 times the backend fallback consumption·0.3·0.5/1000, so the two differ for every non-zero consumption |
| Scoring.TipsShape | src/pages/CalculatorPage.js:121-148 | the tip list has three tips with LED lighting first exactly when score < 50, and otherwise two; it always ends with insulation, then smart control |
| ScoringCopies.ClassifiersAgree | backend/src/models/Report.js:117-131 | the page, the optimizer component and the `Report` model classify every consumption and area alike (level, score, color, factor) |
| ScoringCopies.TipListsAgree | src/components/EnergyOptimizer.js:314-341 | the component's tip list has the page's length and the same titles in the same order |
| CalculatorPage.EfficiencyLevel | src/pages/CalculatorPage.js:98-110 | the page's classifier is the reference classification of consumption / area |
| CalculatorPage.GenerateTips | src/pages/CalculatorPage.js:121-148 | the page's tip rules produce the reference tip list, priorities included |
| CalculatorPage.CalculateResults | src/pages/CalculatorPage.js:72-96 | the results keep the form data and hold the tier of consumption / area, the savings for that tier's factor, investment = 35·area, the payback with the divide-by-1 fallback, CO2 = 6·consumption and the tips for the tier's score |
| CalculatorPage.SaveReport | src/pages/CalculatorPage.js:150-173 | without results the store is unchanged; saving fails only when the existing list cannot be read |
| CalculatorPage.SaveReportAppendsOne | src/pages/CalculatorPage.js:166-173 | after a save, the list reads back as the previous list with exactly one report appended at the end |
| EnergyOptimizer.EfficiencyLevel | src/components/EnergyOptimizer.js:291-303 | the component's classifier is the reference classification |
| EnergyOptimizer.SavingsPotential | src/components/EnergyOptimizer.js:305-312 | the component's savings formula is the reference one |
| EnergyOptimizer.GenerateTips | src/components/EnergyOptimizer.js:314-341 | the component's tips have the reference titles, descriptions and savings, in the reference order |
| EnergyOptimizer.HandleInputChange | src/components/EnergyOptimizer.js:253-259 | only the named form field changes; results, step and saved list stay as they were |
| EnergyOptimizer.CalculateResults | src/components/EnergyOptimizer.js:261-289 | when consumption, bill or area parses to NaN or 0 the state is unchanged; otherwise only the results change, holding the tier of the finite ratio, the savings for that tier's factor, monthly = bill·0.45·factor, annual = 12·monthly, investment = 35·area, the payback with investment/annual (the investment itself when annual is 0), the client CO2 and the tips for the tier's score |
| EnergyOptimizer.SaveReport | src/components/EnergyOptimizer.js:343-355 | without results nothing changes; otherwise exactly one report with the current form and results is appended to the session list |
| EnergyOptimizer.Press | src/components/EnergyOptimizer.js:591-620 | Back goes to max(1, step − 1), so it goes down by exactly one above step 1 and is a no-op on step 1, where the button is hidden; Next moves up by exactly one below step 3 and is absent from step 3 on |
| EnergyOptimizer.StepsStayInRange | src/components/EnergyOptimizer.js:592-606 | from a step in 1..3, any sequence of button presses stays in 1..3 |
| ReportModel.Build | backend/src/models/Report.js:22-105 | a new row defaults to heating "gas", building "residenziale", no recommendations, not public and the default title; a supplied title, heating, building, recommendations and visibility are kept; consumption, bill, area and owner are copied, and the computed columns start empty |
| ReportModel.RebuildRoundTrip | backend/src/models/Report.js:22-105 | building from a built row's own attributes gives the same row, and with every optional attribute supplied the attributes read back unchanged |
| ReportModel.CalculateEfficiency | backend/src/models/Report.js:117-131 | the model's `calculateEfficiency` is the reference classification of the row's consumption / area |
| Storage.SaveWithTimestamp | src/utils/storage.js:14-23 | the key holds the data wrapped with the save time and an expiry 24 hours later; every other key is untouched |
| Storage.GetWithExpiry | src/utils/storage.js:26-49 | a missing or unparsable value reads as nothing; a guest's wrapped value past its expiry (strictly later) reads as nothing and is removed; otherwise it is returned and the store is unchanged |
| Storage.GetReports | src/utils/storage.js:77-84 | a missing slot reads as the empty list; a stored list reads back as is; a guest's read never throws; a read changes the store at most by dropping the reports key |
| Storage.SaveReports | src/utils/storage.js:65-74 | a registered user's list is stored bare; a guest's is wrapped with a 24-hour expiry and the expiry warning is set |
| Storage.SaveKeepsRegistration | src/utils/storage.js:52-74 | saving reports never changes whether the user counts as registered |
| Storage.GuestRoundTrip | src/utils/storage.js:65-84 | a guest's saved list reads back unchanged at any time up to and including 24 hours after the save |
| Storage.GuestExpiry | src/utils/storage.js:40-43 | strictly after the expiry a guest reads an empty list, the reports key is gone, and the expiry warning still names the expiry |
| Storage.GuestSaveSharesExpiry | src/utils/storage.js:87-92 | every guest save sets one expiry, 24 hours from the save, both in the wrapper and in the expiry key |
| Storage.RegisteredRoundTrip | src/utils/storage.js:66-80 | a registered user's saved list reads back unchanged at any later time |
| Storage.GetGuestTimeRemaining | src/utils/storage.js:95-109 | nothing for a registered user or with no expiry key; otherwise whole hours and minutes (at most 59) of the time left, clamped at zero |
| Storage.RegisterUser | src/utils/storage.js:112-130 | afterwards the user is registered, the expiry key is gone and the reports readable before the call are stored bare; it fails only when a registered user's slot does not parse |
| Storage.RegistrationMigrates | src/utils/storage.js:112-130 | the reports readable just before registering (none, if expired) are exactly the reports readable at any time afterwards |
| Storage.RegistrationIdempotent | src/utils/storage.js:112-130 | registering a second time leaves the same stored reports as registering once |
| Storage.CleanExpiredData | src/utils/storage.js:133-137 | a registered user's store is unchanged; a guest's loses at most the reports key |
| Storage.ClearAll | src/utils/storage.js:140-144 | exactly the four storage keys are removed, every other key keeps its value, and the user no longer counts as registered |
| Users.NewUser | backend/src/models/User.js:40-128 | a new user has role user, subscription type free, no plan, all stat counters at zero, is active and unverified, and defaults to country IT and language it |
| Users.UpdateStats | backend/src/models/User.js:181-188 | totalReports goes up by one, the totals go up by the report's savings and CO2 (0 when absent), and nothing else changes |
| Users.ToJson | backend/src/models/User.js:172-179 | the serialised user has every attribute except the four credential columns, each with its stored value |
| Users.SerialisedPlanValues | backend/src/models/User.js:44-51 | the serialised plan is "monthly", "yearly" or null, and the type is "free" or "premium" |
| ReportsController.ExtractedCo2 | backend/src/controllers/reportsController.js:28-34 | with no CO2 value supplied, the stored CO2 is the backend formula applied to the consumption |
| ReportsController.CreateReport | backend/src/controllers/reportsController.js:8-58 | corrected half of Finding 3: one row is appended with the next id, owned by the caller, private and without a public id; each savings column is the extracted value with NaN stored as 0; the owner's stats rise by one report and by the stored (sanitised) savings and CO2, where the source adds the unsanitised values (ReportsController.CreateStatsAsWritten) |
| ReportsController.CreateStatsAsWritten | backend/src/controllers/reportsController.js:50-57 | the stats update as written fails exactly when the extracted annual savings or CO2 is NaN |
| ReportsController.NaNSavingsReachStats | backend/src/controllers/reportsController.js:16-57 | a body whose annual savings is "n/d" stores 0 in the row, yet the stats update as written receives NaN |
| ReportsController.FindOwned | backend/src/controllers/reportsController.js:133-138 | the first row whose id and owner both match, and nothing exactly when no row matches both |
| ReportsController.GetReport | backend/src/controllers/reportsController.js:128-144 | a caller gets one of their own rows with that id, and 404 exactly when they own none |
| ReportsController.UpdateReport | backend/src/controllers/reportsController.js:157-206 | 404 with no change when the caller owns no such row; otherwise only that row changes and only in whitelisted fields; title and visibility are taken when given; data, results and recommendations are replaced exactly when supplied; when results are supplied, each of the three savings columns takes the parsed value when it is truthy and keeps the stored value otherwise; a truthy value that parses to NaN fails the write with 500 and leaves the table unchanged |
| ReportsController.DebitStats | backend/src/controllers/reportsController.js:238-252 | one report fewer and the totals reduced by the row's savings and CO2, each floored at 0; nothing else changes |
| ReportsController.DeleteReport | backend/src/controllers/reportsController.js:222-254 | 404 with no change when the caller owns no such row; otherwise that row is removed and the owner's stats are debited |
| ReportsController.DeleteRemovesExactlyOne | backend/src/controllers/reportsController.js:227-254 | deleting removes exactly the row with that id, keeps every other row and keeps ids increasing |
| ReportsController.ShareReport | backend/src/controllers/reportsController.js:341-374 | 404 with no change when the caller owns no such row; otherwise only that row changes: it becomes public, and gets the generated public id exactly when its public id is missing or empty (`!report.publicId`); the link names the public id when it is non-empty and the row id otherwise |
| ReportsController.ShareIdempotent | backend/src/controllers/reportsController.js:356-367 | sharing twice returns the same link as sharing once and changes nothing more, given that a generated id is never empty |
| ReportsController.Owned | backend/src/controllers/reportsController.js:86-87 | a row is selected exactly when it is in the table and belongs to the caller |
| ReportsController.CeilDiv | backend/src/controllers/reportsController.js:115 | `Math.ceil(count / limit)`: the least number of pages of `limit` rows that hold `count` rows |
| ReportsController.Window | backend/src/controllers/reportsController.js:89-90 | LIMIT/OFFSET: at most `limit` consecutive rows starting at `offset`, and as many as remain |
| ReportsController.GetAllReports | backend/src/controllers/reportsController.js:74-117 | page 1 and limit 10 by default; a negative offset or limit is rejected; otherwise the page is the caller's newest-first rows from (page−1)·limit, with the caller's total and ceil(total / limit) pages |
| ReportsController.CreateKeepsCreatedOrder | backend/src/controllers/reportsController.js:37-48 | a create at a time no earlier than every stored row keeps the creation times in table order |
| ReportsController.OwnedInOrder | backend/src/controllers/reportsController.js:86-87 | selecting the caller's rows keeps creation times in order |
| ReportsController.TimelineNewestFirst | backend/src/controllers/reportsController.js:80-90 | with creation times in table order, the listing order is non-increasing in `createdAt`, which is the default `createdAt DESC` |
| ReportsController.ListedRowsAreOwn | backend/src/controllers/reportsController.js:86-91 | every listed row belongs to the caller |
| ReportsController.PageArithmetic | backend/src/controllers/reportsController.js:84-115 | entry k of a list sits at position k mod limit of page k / limit + 1, and that page is within the page count |
| ReportsController.PagesPartitionTimeline | backend/src/controllers/reportsController.js:84-115 | the k-th newest of the caller's rows is listed at position k mod limit of page k / limit + 1 |
| ReportsController.GetPublicReport | backend/src/controllers/reportsController.js:385-405 | as written: a row matching the public id is served whether or not it is public; a row matching the numeric id must be public; 404 exactly when no row matches either branch |
| ReportsController.GetPublicReportChecked | backend/src/controllers/reportsController.js:385-405 | only a public row is served, matched by public id or id, and 404 exactly when no public row matches |
| ReportsController.UnsharedReportStillServed | backend/src/controllers/reportsController.js:389-391 | a report shared and then made private again is still served by its public link |
| ReportsController.NewUserStatsMatch | backend/src/models/User.js:100-112 | a new user who owns no rows has stats equal to the count and sums over their rows, so the create and delete invariants start out true |
| ReportsController.CreateKeepsStatsMatch | backend/src/controllers/reportsController.js:50-57 | if a user's stats equal the count and sums of their rows, they still do after a create |
| ReportsController.DeleteKeepsStatsMatch | backend/src/controllers/reportsController.js:238-254 | with non-negative savings in the rows, the stats still equal the count and sums of the rows after a delete |
| ReportsController.CreateThenDeleteRestores | backend/src/controllers/reportsController.js:240-251 | creating a report and deleting it gives back the original rows and users table, for non-negative totals |
| PremiumLimits.HookCount | src/hooks/usePremiumLimits.js:15-18 | a missing slot counts 0 and a bare list counts its length; a guest's wrapped list has no `length` (undefined); unparsable text throws |
| PremiumLimits.LoadCount | src/hooks/usePremiumLimits.js:12-20 | only a visitor who is not signed in has the count loaded; otherwise, or when parsing throws, the count keeps its value |
| PremiumLimits.CheckReportLimit | src/hooks/usePremiumLimits.js:22-63 | a visitor is stopped from one report on and a "free" plan from three on, with the matching prompt; every other case is allowed; pricing opens only when a stopped caller confirms |
| PremiumLimits.IsPremium | src/hooks/usePremiumLimits.js:65-70 | signed in and on the "premium" or "business" plan |
| PremiumLimits.CanCreateReport | src/hooks/usePremiumLimits.js:76 | always for a signed-in user; for a visitor exactly when the count is a number below 1 |
| PremiumLimits.Left | src/hooks/usePremiumLimits.js:77-81 | `Math.max(0, quota − count)`: never negative, and what remains plus the count reaches the quota; NaN for an undefined count |
| PremiumLimits.RemainingReports | src/hooks/usePremiumLimits.js:77-81 | 1 for a visitor and 3 for the "free" plan, less the count; 999 otherwise |
| PremiumLimits.LimitViewsAgree | src/hooks/usePremiumLimits.js:22-81 | with a known count, creation is allowed exactly when some report remains, and for a visitor exactly when `canCreateReport` holds |
| PremiumLimits.StoredReportCount | src/utils/storage.js:77-84 | the count read through `getReports` is the number of reports the visitor actually has |
| PremiumLimits.GuestLimitNeverTrips | src/hooks/usePremiumLimits.js:15-18 | after a visitor saves a report, the raw count is undefined, so the limit check lets another report through; counted through `getReports`, the visitor is stopped |
| PremiumLimits.HookPlan | src/hooks/usePremiumLimits.js:44 | the hook reads the serialised `subscriptionPlan` field, or nothing without a user |
| PremiumLimits.PlanNeverMatches | src/hooks/usePremiumLimits.js:42-81 | reading `subscriptionPlan`, no user is premium, no signed-in user is ever limited, and 999 reports always remain |
| PremiumLimits.HookTier | src/hooks/usePremiumLimits.js:44 | reading `subscriptionType`, a free user's field is "free" and a premium user's is "premium" |
| PremiumLimits.TierMatches | src/hooks/usePremiumLimits.js:42-81 | reading `subscriptionType`, a user is premium exactly when their type is premium, and a free user is stopped at three reports |
| CalculatorForm.ValidateStep | src/components/Calculator/CalculatorForm.js:134-145 | step 1 needs consumption and bill, step 2 area and building type, step 3 always passes, and any other step fails |
| CalculatorForm.HandleInputChange | src/components/Calculator/CalculatorForm.js:126-132 | the named field takes the value; every other field and the step are unchanged |
| CalculatorForm.HandleNext | src/components/Calculator/CalculatorForm.js:147-153 | the step goes up by exactly one when the current step validates; otherwise it stays and an alert is raised |
| CalculatorForm.HandlePrevious | src/components/Calculator/CalculatorForm.js:155-157 | the step becomes max(1, step − 1) |
| CalculatorForm.HandleCalculate | src/components/Calculator/CalculatorForm.js:159-165 | the form is handed on exactly when steps 1 and 2 validate, and then unchanged |
| CalculatorForm.StepKeepsReachable | src/components/Calculator/CalculatorForm.js:340-385 | with Back hidden on step 1 and Next only below step 3, every action keeps the step in 1..3 and keeps all initial fields |
| CalculatorForm.RunKeepsReachable | src/components/Calculator/CalculatorForm.js:340-385 | any sequence of actions from a reachable state stays reachable |
| CalculatorForm.InitialReachable | src/components/Calculator/CalculatorForm.js:115-124 | the initial form is on step 1 with all seven fields |
| Monetization.GetUserLevel | src/utils/monetization.js:96-104 | 0 reports is the first level and 25 or more the top; `next` is above the count, and null exactly at the top level |
| Monetization.LevelMatchesThresholds | src/utils/monetization.js:99-103 | the level's rank is the number of thresholds 1, 3, 10, 25 reached, and `next` is the count where the rank goes up |
| Monetization.LevelMonotone | src/utils/monetization.js:99-103 | more reports never give a lower level |
| Monetization.CalculateReportValue | src/utils/monetization.js:75-93 | the six components, their total by left fold, the discount 79 and savings = total − discount |
| Monetization.ReportValueFigures | src/utils/monetization.js:76-92 | the total is 443 and the savings 364 |
| RegisterPage.Strength | src/pages/RegisterPage.js:155-159 | a strength between 0 and 4 |
| RegisterPage.GetPasswordStrength | src/pages/RegisterPage.js:154-169 | percentage = 25·strength; strength 0 reads "Molto debole" in red, and strength k ≥ 1 reads the k-th level and color |
| RegisterPage.AppendNeverWeakens | src/pages/RegisterPage.js:156-159 | typing one more character never lowers the strength |
| RegisterPage.MixedCaseNeedsBoth | src/pages/RegisterPage.js:157 | eight lower-case letters earn one point, one capital more earns a second, and adding a digit and a symbol reaches the top |
| RegisterPage.HandleSubmit | src/pages/RegisterPage.js:20-29 | registration is attempted exactly when the terms are accepted, and then with the form as filled in |
| PricingPage.Tick | src/pages/PricingPage.js:32-39 | seconds count down first, then minutes and hours reload 59, and 0:00:00 wraps to 23:59:59 |
| PricingPage.TickCountsDown | src/pages/PricingPage.js:32-39 | from a clock in range, a tick stays in range and takes exactly one second off the total, except at the wrap |
| PricingPage.TicksFromStart | src/pages/PricingPage.js:18-39 | after n ticks from 23:59:59 the clock is in range and shows 86399 − (n mod 86400) seconds |
| SharedLandingPage.Referrer | src/pages/SharedLandingPage.js:12 | the `ref` value when present and non-empty, otherwise "Un amico" |
| SharedLandingPage.Tick | src/pages/SharedLandingPage.js:27-31 | minutes count down first, then hours reload 59 minutes, and 0:00 wraps to 23:59 |
| SharedLandingPage.TickCountsDown | src/pages/SharedLandingPage.js:27-31 | from a clock in range, a tick stays in range and takes exactly one minute off the total, except at the wrap |
| SharedLandingPage.TicksFromStart | src/pages/SharedLandingPage.js:14-31 | after n ticks from 23:59 the clock is in range and shows 1439 − (n mod 1440) minutes |
| Analytics.PlatformOf | backend/src/models/ShareTracking.js:35-43 | a platform is accepted exactly when it is one of the five enum values |
| Analytics.FindShare | backend/src/controllers/analyticsController.js:41 | the first share with that share id, and nothing exactly when none has it |
| Analytics.TrackShare | backend/src/controllers/analyticsController.js:8-33 | a share with no clicks is appended and the caller's share count rises by one exactly when caller, share id, report and platform are valid; otherwise 500 and no change |
| Analytics.TrackClick | backend/src/controllers/analyticsController.js:36-58 | an unknown share id changes nothing; otherwise that share gets one more click and a click event is logged, and the users, reports and id counter are unchanged |
| Analytics.TrackConversion | backend/src/controllers/analyticsController.js:61-101 | one more conversion on the share, a conversion event, and a bonus month for the owner exactly when their summed conversions is then a multiple of 3; the reports and id counter are unchanged |
| Analytics.OneMoreConversion | backend/src/controllers/analyticsController.js:77-87 | one more conversion on one share raises its owner's summed conversions by one and leaves other users' sums alone |
| Analytics.BonusEveryThird | backend/src/controllers/analyticsController.js:76-93 | starting from no conversions, n conversions earn the owner n / 3 bonus months |
| Analytics.InWindow | backend/src/controllers/analyticsController.js:110-120 | exactly the caller's shares created within the window, both ends included |
| Analytics.SortByClicks | backend/src/controllers/analyticsController.js:170 | the shares sorted by descending clicks, as a permutation of the input |
| Analytics.TopShares | backend/src/controllers/analyticsController.js:170 | at most five shares (fewer only when there are fewer), drawn from the input, in descending clicks, none with fewer clicks than a share left out |
| Analytics.OverviewOf | backend/src/controllers/analyticsController.js:122-167 | share count, summed clicks and conversions; the conversion rate is 0 without clicks and conversions·100/clicks otherwise; the viral coefficient is 0 without shares and conversions/shares otherwise |
| Analytics.GetUserAnalytics | backend/src/controllers/analyticsController.js:104-176 | without a caller 500; otherwise the overview and top five of the caller's shares in the window, which is the last 30 days by default |
| Analytics.AnalyticsStayInWindow | backend/src/controllers/analyticsController.js:110-120 | every counted and every top share is one of the caller's, created inside the window |
| Analytics.GetGlobalAnalytics | backend/src/controllers/analyticsController.js:179-272 | 403 for any role but super-admin and 500 without a caller; a super-admin gets the user count, the number of users on the premium plan, the report count, the share count, and a rate that is a number exactly when there are users and then equals premium·100/total |
| Analytics.RefusalReadsNothing | backend/src/controllers/analyticsController.js:182-184 | a refused caller gets the same answer whatever the tables hold |
| Analytics.GenerateToken | backend/src/controllers/authController.js:6-10 | an issued token carries the user id and no user object |
| Analytics.IssuedTokensBreakAnalytics | backend/src/middleware/auth.js:21-22 | with the tokens the server issues, the share tracker, the user overview and the global figures all fail with 500 |
| Analytics.RequestCaller | backend/src/middleware/auth.js:21 | the caller resolved from the token's user id: present exactly when the user exists, with that user's role |
| Analytics.ResolvedCallerReachesAnalytics | backend/src/controllers/analyticsController.js:179-184 | with the caller resolved by id, the global figures open exactly to an existing super-admin and the overview to every existing user |

## Left out

- React rendering, styling, charts, navigation and `alert`/`window.confirm`. A prompt's answer is the `confirmed` parameter. Only CalculatorForm.HandleNext, CalculatorForm.HandleCalculate and RegisterPage.HandleSubmit report their alert in the result. Elsewhere the alert is left out: EnergyOptimizer.CalculateResults shows a refused calculation as the unchanged state, and EnergyOptimizer.SaveReport and CalculatorPage.SaveReport do not model their success alert. CalculatorPage.SaveReport also leaves out the `navigate('/reports')` that follows it.
- The randomised marketing helpers in `src/utils/monetization.js` (`generateOptimisticResults`, `getUrgencyMessage`, `getSocialProof`, `getCountdownData`, `getTestimonials`), because they depend on `Math.random` and the clock.
- The random public id of `shareReport`. It is the `freshId` parameter.
- `trackVisit` in `SharedLandingPage.js` is left out. It posts to `/api/analytics/track`, whose route is commented out, so it changes no state the model holds.
- `getReportStats` and the `platformStats`/`dailyStats` queries of `getUserAnalytics`, because they are SQL aggregates and date grouping.
- The revenue, `usersBySubscription`, `topReferrers` and `dailyMetrics` figures of `getGlobalAnalytics`, for the same reason.
- The `sortBy`/`order` query parameters of `getAllReports`. The listing is modelled with the default, newest first by creation.
- ReportsController.GetAllReports: rows are listed by id, newest first. That is the source's `createdAt DESC` only while the clock does not go back. ReportsController.TimelineNewestFirst proves it under that condition, and ReportsController.CreateKeepsCreatedOrder shows a create keeps it. The model takes no clock, so a table whose creation times run against the ids is listed by id. Rows with equal `createdAt`, which the database may return in any order, are listed newest id first.
- The per-row reshaping of the listing into flat fields, which is presentation.
- Formatting: `toFixed`, `toLocaleDateString` and `toISOString`. Rates are exact reals, default titles are a parameter, and dates are integer milliseconds.
- Binary floating point: all arithmetic is over the reals.
- `parseFloat` of arbitrary text. A text value carries the number it parses to.
- JSON parsing beyond one "unparsable" variant.
- Scoring.PercentagePerTier: the middle tier is stated as 31 or 32, because the real-number model rounds 31.5 up to 32 while JavaScript doubles compute 45·0.7 just below 31.5 and give 31.
- Writing NaN into a DECIMAL column is modelled as a failed update, with no change and a 500. The database's own reaction is not part of this model.
- Analytics.TopShares: the order among shares with equal clicks is not stated, because it depends on the engine's sort.
- Analytics.GetGlobalAnalytics: premium users are counted over all users. The 30-day `dateFilter` is built but only used by queries that are not modelled.
- ReportsController.CreateReport: it is the corrected stats update of Finding 3. It adds the stored, sanitised savings, while the source adds the unsanitised value (modelled by ReportsController.CreateStatsAsWritten).
- ReportsController.GetPublicReport: the source's `include: [{ model: User, attributes: ['name'] }]` (reportsController.js:393-397) names no alias, while models/index.js:13-16 declares the association `as: 'user'`. Sequelize may then reject the query and the handler answer 500. The model takes the include as resolving and states only the row selection.
- Analytics.GenerateToken: the login and registration handlers sign `user._id` (authController.js:41, 90), which a users-table row does not have, so `req.userId` is undefined as written. The model signs the primary key.
- Analytics.TrackShare: it assumes the share and event tables are registered. models/index.js:18-21 exports only `User` and `Report`, so `ShareTracking` and `AnalyticsEvent` are undefined in analyticsController.js:3, and as written every call that reaches them fails with 500 whoever the caller is.
- Analytics.TrackClick: it assumes the share and event tables are registered, as for TrackShare.
- Analytics.TrackConversion: it assumes the share and event tables are registered, as for TrackShare.
- Analytics.GetUserAnalytics: it assumes the share table is registered, as for TrackShare.
- Analytics.GetGlobalAnalytics: it assumes the share table is registered, as for TrackShare. Even with it exported, the `topReferrers` query includes `ShareTracking` `as: 'shares'` (analyticsController.js:233-239), and models/index.js:7-16 declares no such association.
- The analytics handlers are not reachable over HTTP. server.js:12-14 and 42-44 mount only the auth, users and reports routers, so `/api/analytics/*` falls to the 404 handler at server.js:64-67. The model describes each handler as it behaves when invoked.
- ReportsController.ShareReport and ReportsController.GetPublicReport are not routed: routes/reports.js:130-134 routes only list, read, create, update and delete. The model describes them as they behave when invoked.
- ReportsController.ShareReport: Report.js:22-105 defines no `publicId` column, so the public id the handler writes has no column to live in. The model keeps it on the row, as the controller treats it.
- Users.ToJson: User.js does not turn off timestamps, so the database adds `createdAt` and `updatedAt` and `toJSON` serialises them. The user datatype has neither field.
- Concurrency and transactions: the report write and the stats update run one after the other.
- JWT signing, verification and expiry, and bcrypt hashing. A verified payload is a datatype.
- The `Report.js` schema has flat columns, while the controller writes `data`/`results` JSON columns. The controller's shape is modelled, and `Report.js` only for its defaults and `calculateEfficiency`.
- Password-length counting in UTF-16 code units: a Dafny string counts characters.

## Findings

| source | as written | input that shows it | evidently intended | confidence | as-written member | corrected member |
|---|---|---|---|---|---|---|
| src/hooks/usePremiumLimits.js:15-18 | The guest count is the `length` of the raw parsed storage slot. A guest's slot holds the `{data, timestamp, expiresAt}` wrapper, whose `length` is undefined. | A visitor saves one report on the calculator page. The count becomes undefined, `checkReportLimit` allows a second report, `canCreateReport` is false and `remainingReports` is NaN. | Count the reports read through `StorageManager.getReports()`. | high, not executed | PremiumLimits.GuestLimitNeverTrips | PremiumLimits.StoredReportCount |
| src/hooks/usePremiumLimits.js:44 | `subscriptionPlan` is compared with "free", "premium" and "business", but that column only holds "monthly", "yearly" or null. | Any signed-in user with `subscriptionType` "free" and 3 reports is still allowed; a premium user is not premium. | Compare `subscriptionType`, which holds "free" and "premium". | high, not executed | PremiumLimits.PlanNeverMatches | PremiumLimits.TierMatches |
| backend/src/controllers/reportsController.js:55-56 | The row stores NaN savings as 0, but the stats update adds the unsanitised value. | A body with `annualSavings: "n/d"` leads to `totalSavings + NaN`. | Add the sanitised value that the row stores. | high, not executed | ReportsController.NaNSavingsReachStats | ReportsController.CreateReport |
| backend/src/controllers/reportsController.js:391 | The public-id branch of the lookup does not require `isPublic`. | When invoked directly: share a report, then update it with `isPublic: false`; the lookup by its public id still returns the row. (Neither handler is routed, see Left out.) | Serve only public reports, as the 404 message "non trovato o non pubblico" says. The row would be served once the lookup's `include` resolves; as written it names no alias (see Left out). | medium, not executed | ReportsController.UnsharedReportStillServed | ReportsController.GetPublicReportChecked |
| backend/src/middleware/auth.js:22 | `req.user` is set from `decoded.user`, but issued tokens carry only `userId`, and the analytics handlers read `req.user.id` and `req.user.role`. | When invoked directly with the payload of any issued token, `trackShare`, `getUserAnalytics` and `getGlobalAnalytics` reach their 500 branch. (The analytics router is not mounted, see Left out.) | Resolve the caller from `req.userId` through the users table. That alone does not repair the handlers: the tokens also have to sign `user.id` rather than `user._id` (authController.js:41, 90), and `ShareTracking` and `AnalyticsEvent` have to be exported by models/index.js:18-21. The corrected member models only the caller part. | high, not executed | Analytics.IssuedTokensBreakAnalytics | Analytics.RequestCaller |

=== FILE: analytics.dfy ===
/** The share-tracking controller: recording a share, counting clicks and
    conversions on it (with a bonus month every third conversion), a user's
    share overview, and the super-admin guard on the global figures. */
module Analytics {
  import opened Common
  import opened Users

  datatype Platform = Whatsapp | Facebook | Linkedin | Twitter | Link

  /** The platform enumeration's check on the stored text. */
  function PlatformOf(s: string): (p: Option<Platform>)
    ensures p.Some? <==> s in {"whatsapp", "facebook", "linkedin", "twitter", "link"}
  {
    if s == "whatsapp" then Some(Whatsapp)
    else if s == "facebook" then Some(Facebook)
    else if s == "linkedin" then Some(Linkedin)
    else if s == "twitter" then Some(Twitter)
    else if s == "link" then Some(Link)
    else None
  }

  /** A row of the share-tracking table. */
  datatype Share = Share(id: nat, shareId: string, userId: nat, reportId: nat, platform: Platform,
                         clickCount: nat, conversions: nat, createdAt: int)

  /** A row of the analytics-event log. */
  datatype Event =
    | ShareClick(userId: nat, shareId: string, referrer: Option<string>, platform: Platform)
    | ShareConversion(userId: nat, shareId: string, convertedUserId: Option<nat>, platform: Platform)

  /** The tables the controller touches; `reports` holds the ids of existing
      reports, which a share must point at. */
  datatype Db = Db(shares: seq<Share>, users: UserTable, reports: set<nat>, events: seq<Event>, nextId: nat)

  /** The caller the authentication layer attached to the request. */
  datatype Caller = Caller(id: nat, role: Role)

  datatype Failure = Forbidden | ServerError

  // ---------------------------------------------------------------- lookups

  predicate ShareIdTaken(shares: seq<Share>, shareId: string) {
    exists k :: 0 <= k < |shares| && shares[k].shareId == shareId
  }

  /** `ShareTracking.findOne({ where: { shareId } })`. */
  function FindShare(shares: seq<Share>, shareId: string): (i: Option<nat>)
    ensures i.Some? ==> i.value < |shares| && shares[i.value].shareId == shareId
    ensures i.Some? ==> forall k :: 0 <= k < i.value ==> shares[k].shareId != shareId
    ensures i.None? <==> !ShareIdTaken(shares, shareId)
  {
    if |shares| == 0 then None
    else if shares[0].shareId == shareId then Some(0)
    else match FindShare(shares[1..], shareId)
      case Some(k) => Some(k + 1)
      case None => None
  }

  // ---------------------------------------------------------------- track

  /** `trackShare`: records a share with no clicks and raises the caller's
      `totalShares` by one. The insert fails, and nothing changes, when the
      share id is missing or already used, the report is missing, the
      platform is not one of the five, or the caller is not a user; a missing
      caller fails before anything is read. */
  function TrackShare(db: Db, caller: Option<Caller>, reportId: Option<nat>, platform: Option<string>,
                      shareId: Option<string>, now: int): (r: (Db, Result<string, Failure>))
    ensures r.1.Err? ==> r.0 == db && r.1.error == ServerError
    ensures r.1.Ok? <==>
      && caller.Some? && caller.value.id in db.users
      && shareId.Some? && !ShareIdTaken(db.shares, shareId.value)
      && reportId.Some? && reportId.value in db.reports
      && platform.Some? && PlatformOf(platform.value).Some?
    ensures r.1.Ok? ==>
      var uid := caller.value.id;
      && r.1.value == shareId.value
      && r.0.shares == db.shares + [Share(db.nextId, shareId.value, uid, reportId.value,
                                          PlatformOf(platform.value).value, 0, 0, now)]
      && r.0.users == db.users[uid := db.users[uid].(totalShares := db.users[uid].totalShares + 1)]
      && r.0.events == db.events && r.0.reports == db.reports
  {
    if caller.None? then (db, Err(ServerError))
    else if shareId.None? || ShareIdTaken(db.shares, shareId.value) then (db, Err(ServerError))
    else if reportId.None? || reportId.value !in db.reports then (db, Err(ServerError))
    else if platform.None? || PlatformOf(platform.value).None? then (db, Err(ServerError))
    else if caller.value.id !in db.users then (db, Err(ServerError))
    else
      var uid := caller.value.id;
      var share := Share(db.nextId, shareId.value, uid, reportId.value, PlatformOf(platform.value).value, 0, 0, now);
      var u := db.users[uid];
      (db.(shares := db.shares + [share], users := db.users[uid := u.(totalShares := u.totalShares + 1)],
           nextId := db.nextId + 1),
       Ok(shareId.value))
  }

  /** `trackClick`: one more click on the share with that id, and a click
      event logged; an unknown id changes nothing. */
  function TrackClick(db: Db, shareId: string, referrer: Option<string>): (db': Db)
    ensures !ShareIdTaken(db.shares, shareId) ==> db' == db
    ensures ShareIdTaken(db.shares, shareId) ==>
      var i := FindShare(db.shares, shareId).value;
      && db'.shares == db.shares[i := db.shares[i].(clickCount := db.shares[i].clickCount + 1)]
      && db'.events == db.events + [ShareClick(db.shares[i].userId, shareId, referrer, db.shares[i].platform)]
      && db'.users == db.users
      && db' == db.(shares := db'.shares, events := db'.events)
  {
    match FindShare(db.shares, shareId)
    case None => db
    case Some(i) =>
      var s := db.shares[i];
      db.(shares := db.shares[i := s.(clickCount := s.clickCount + 1)],
          events := db.events + [ShareClick(s.userId, shareId, referrer, s.platform)])
  }

  /** `SUM(conversions)` over one user's shares. */
  function OwnerConversions(shares: seq<Share>, uid: nat): nat {
    if |shares| == 0 then 0
    else (if shares[0].userId == uid then shares[0].conversions else 0) + OwnerConversions(shares[1..], uid)
  }

  /** One more conversion on one of a user's shares adds exactly one to the
      user's summed conversions and leaves every other user's sum alone. */
  lemma {:induction false} OneMoreConversion(shares: seq<Share>, i: nat, uid: nat)
    requires i < |shares|
    ensures var shares' := shares[i := shares[i].(conversions := shares[i].conversions + 1)];
      OwnerConversions(shares', uid)
        == OwnerConversions(shares, uid) + (if shares[i].userId == uid then 1 else 0)
    decreases i
  {
    var shares' := shares[i := shares[i].(conversions := shares[i].conversions + 1)];
    if i == 0 {
      assert shares'[1..] == shares[1..];
    } else {
      assert shares'[1..] == shares[1..][i - 1 := shares[i].(conversions := shares[i].conversions + 1)];
      OneMoreConversion(shares[1..], i - 1, uid);
    }
  }

  /** `trackConversion`: one more conversion on the share, a conversion event
      logged, and a bonus month for the share's owner when the owner's summed
      conversions is then a multiple of 3; an unknown id changes nothing. */
  function TrackConversion(db: Db, shareId: string, convertedUserId: Option<nat>): (db': Db)
    ensures !ShareIdTaken(db.shares, shareId) ==> db' == db
    ensures ShareIdTaken(db.shares, shareId) ==>
      var i := FindShare(db.shares, shareId).value;
      var owner := db.shares[i].userId;
      && db'.shares == db.shares[i := db.shares[i].(conversions := db.shares[i].conversions + 1)]
      && db'.events == db.events + [ShareConversion(owner, shareId, convertedUserId, db.shares[i].platform)]
      && OwnerConversions(db'.shares, owner) == OwnerConversions(db.shares, owner) + 1
      && (owner in db.users && OwnerConversions(db'.shares, owner) % 3 == 0 ==>
            db'.users == db.users[owner := db.users[owner].(bonusMonths := db.users[owner].bonusMonths + 1)])
      && (owner !in db.users || OwnerConversions(db'.shares, owner) % 3 != 0 ==> db'.users == db.users)
      && db' == db.(shares := db'.shares, events := db'.events, users := db'.users)
  {
    match FindShare(db.shares, shareId)
    case None => db
    case Some(i) =>
      var s := db.shares[i];
      var shares' := db.shares[i := s.(conversions := s.conversions + 1)];
      OneMoreConversion(db.shares, i, s.userId);
      var total := OwnerConversions(shares', s.userId);
      var users' := if total % 3 == 0 && s.userId in db.users
        then db.users[s.userId := db.users[s.userId].(bonusMonths := db.users[s.userId].bonusMonths + 1)]
        else db.users;
      db.(shares := shares', users := users',
          events := db.events + [ShareConversion(s.userId, shareId, convertedUserId, s.platform)])
  }

  /** `n` conversions on the same share, one after another. */
  function Conversions(db: Db, shareId: string, n: nat): Db {
    if n == 0 then db else TrackConversion(Conversions(db, shareId, n - 1), shareId, None)
  }

  /** Changing counters on the found share does not move where the lookup
      finds it. */
  lemma FindShareStable(shares: seq<Share>, i: nat, shareId: string)
    requires FindShare(shares, shareId) == Some(i)
    ensures FindShare(shares[i := shares[i].(conversions := shares[i].conversions + 1)], shareId) == Some(i)
  {
    var shares' := shares[i := shares[i].(conversions := shares[i].conversions + 1)];
    assert shares'[i].shareId == shareId;
  }

  /** One conversion on a known share: the lookup still finds it, its owner
      gains one summed conversion, and a bonus month exactly when that sum is
      a multiple of 3. */
  lemma ConversionStep(db: Db, shareId: string)
    requires ShareIdTaken(db.shares, shareId)
    ensures var i := FindShare(db.shares, shareId).value;
      var owner := db.shares[i].userId;
      var db' := TrackConversion(db, shareId, None);
      && FindShare(db'.shares, shareId) == Some(i)
      && db'.shares[i].userId == owner
      && db'.users.Keys == db.users.Keys
      && OwnerConversions(db'.shares, owner) == OwnerConversions(db.shares, owner) + 1
      && (owner in db.users ==>
            db'.users[owner].bonusMonths
              == db.users[owner].bonusMonths + (if OwnerConversions(db'.shares, owner) % 3 == 0 then 1 else 0))
  {
    FindShareStable(db.shares, FindShare(db.shares, shareId).value, shareId);
  }

  /** Starting from no conversions, the owner of a share earns one bonus
      month per three conversions on their shares. */
  lemma {:induction false} BonusEveryThird(db: Db, shareId: string, n: nat)
    requires ShareIdTaken(db.shares, shareId)
    requires var i := FindShare(db.shares, shareId).value;
      && db.shares[i].userId in db.users
      && OwnerConversions(db.shares, db.shares[i].userId) == 0
    ensures var i := FindShare(db.shares, shareId).value;
      var owner := db.shares[i].userId;
      var db' := Conversions(db, shareId, n);
      && FindShare(db'.shares, shareId) == Some(i)
      && db'.shares[i].userId == owner
      && owner in db'.users
      && OwnerConversions(db'.shares, owner) == n
      && db'.users[owner].bonusMonths == db.users[owner].bonusMonths + n / 3
  {
    var i := FindShare(db.shares, shareId).value;
    BonusAfter(db, shareId, i, db.shares[i].userId, db.users[db.shares[i].userId].bonusMonths, n);
  }

  /** After `k` conversions on the share at place `i`, the lookup still
      finds it there, its owner has summed `k` conversions and `k / 3`
      months on top of `base`. */
  predicate BonusInvariant(d: Db, shareId: string, i: nat, owner: nat, base: nat, k: nat) {
    && FindShare(d.shares, shareId) == Some(i)
    && d.shares[i].userId == owner
    && owner in d.users
    && OwnerConversions(d.shares, owner) == k
    && d.users[owner].bonusMonths == base + k / 3
  }

  /** BonusEveryThird with the share's place, its owner and the owner's
      starting bonus named. */
  lemma {:induction false} BonusAfter(db: Db, shareId: string, i: nat, owner: nat, base: nat, n: nat)
    requires BonusInvariant(db, shareId, i, owner, base, 0)
    ensures BonusInvariant(Conversions(db, shareId, n), shareId, i, owner, base, n)
    decreases n
  {
    if n > 0 {
      BonusAfter(db, shareId, i, owner, base, n - 1);
      ConversionsStep(db, shareId, i, owner, base, n);
    }
  }

  /** The induction step of BonusAfter, stated on the run of conversions. */
  lemma ConversionsStep(db: Db, shareId: string, i: nat, owner: nat, base: nat, n: nat)
    requires n > 0
    requires BonusInvariant(Conversions(db, shareId, n - 1), shareId, i, owner, base, n - 1)
    ensures BonusInvariant(Conversions(db, shareId, n), shareId, i, owner, base, n)
  {
    BonusStep(Conversions(db, shareId, n - 1), Conversions(db, shareId, n), shareId, i, owner, base, n - 1);
  }

  /** One more conversion keeps the invariant with the count one higher. */
  lemma BonusStep(prev: Db, next: Db, shareId: string, i: nat, owner: nat, base: nat, k: nat)
    requires next == TrackConversion(prev, shareId, None)
    requires BonusInvariant(prev, shareId, i, owner, base, k)
    ensures BonusInvariant(next, shareId, i, owner, base, k + 1)
  {
    ConversionStep(prev, shareId);
    ThirdStep(k + 1);
  }

  /** Every third count adds one to the count of whole threes. */
  lemma ThirdStep(n: nat)
    requires n > 0
    ensures n / 3 == (n - 1) / 3 + (if n % 3 == 0 then 1 else 0)
  {
  }

  // ---------------------------------------------------------------- overview

  /** The caller's shares created within the window, both ends included. */
  function InWindow(shares: seq<Share>, uid: nat, lo: int, hi: int): (w: seq<Share>)
    ensures forall s :: s in w <==> s in shares && s.userId == uid && lo <= s.createdAt <= hi
    ensures |w| <= |shares|
  {
    if |shares| == 0 then []
    else
      var head := if shares[0].userId == uid && lo <= shares[0].createdAt <= hi then [shares[0]] else [];
      head + InWindow(shares[1..], uid, lo, hi)
  }

  function SumClicks(shares: seq<Share>): nat {
    if |shares| == 0 then 0 else shares[0].clickCount + SumClicks(shares[1..])
  }

  function SumConversions(shares: seq<Share>): nat {
    if |shares| == 0 then 0 else shares[0].conversions + SumConversions(shares[1..])
  }

  /** Clicks in descending order. */
  ghost predicate SortedByClicks(t: seq<Share>) {
    forall i, j :: 0 <= i < j < |t| ==> t[i].clickCount >= t[j].clickCount
  }

  /** A head with at least the clicks of everything after it keeps a
      sorted list sorted. */
  lemma SortedCons(h: Share, rest: seq<Share>)
    requires SortedByClicks(rest)
    requires forall y :: y in rest ==> y.clickCount <= h.clickCount
    ensures SortedByClicks([h] + rest)
  {
    var r := [h] + rest;
    forall i, j | 0 <= i < j < |r| ensures r[i].clickCount >= r[j].clickCount {
      if i > 0 {
        assert r[i] == rest[i - 1] && r[j] == rest[j - 1];
      } else {
        assert r[j] == rest[j - 1];
        assert r[j] in rest;
      }
    }
  }

  /** Places `x` before the first entry with no more clicks than it. */
  function Insert(x: Share, t: seq<Share>): (r: seq<Share>)
    requires SortedByClicks(t)
    ensures SortedByClicks(r)
    ensures multiset(r) == multiset(t) + multiset{x}
  {
    if |t| == 0 || x.clickCount >= t[0].clickCount then
      SortedCons(x, t);
      [x] + t
    else
      var rest := Insert(x, t[1..]);
      assert t == [t[0]] + t[1..];
      assert forall y :: y in rest ==> y in multiset(t[1..]) + multiset{x};
      assert forall y :: y in t[1..] ==> y.clickCount <= t[0].clickCount;
      SortedCons(t[0], rest);
      [t[0]] + rest
  }

  /** The comparator `b.clickCount - a.clickCount` applied by a stable sort. */
  function SortByClicks(s: seq<Share>): (r: seq<Share>)
    ensures SortedByClicks(r)
    ensures multiset(r) == multiset(s)
  {
    if |s| == 0 then []
    else
      assert s == [s[0]] + s[1..];
      Insert(s[0], SortByClicks(s[1..]))
  }

  /** In a sorted list every entry of a prefix has at least the clicks of
      every entry after it. */
  lemma PrefixDominates(sorted: seq<Share>, n: nat)
    requires SortedByClicks(sorted) && n <= |sorted|
    ensures forall x, y :: x in sorted[..n] && y in sorted[n..] ==> x.clickCount >= y.clickCount
  {
    forall x, y | x in sorted[..n] && y in sorted[n..] ensures x.clickCount >= y.clickCount {
      var a :| 0 <= a < n && sorted[..n][a] == x;
      var b :| 0 <= b < |sorted| - n && sorted[n..][b] == y;
      assert sorted[a] == x && sorted[n + b] == y;
    }
  }

  /** `shares.sort(...).slice(0, 5)`: at most five shares, drawn from the
      list, most clicked first; no share left out has more clicks than one
      kept. */
  function TopShares(s: seq<Share>): (top: seq<Share>)
    ensures |top| == if |s| < 5 then |s| else 5
    ensures SortedByClicks(top)
    ensures multiset(top) <= multiset(s)
    ensures forall x, y :: x in top && y in multiset(s) - multiset(top) ==> x.clickCount >= y.clickCount
  {
    var sorted := SortByClicks(s);
    assert |sorted| == |multiset(sorted)| == |s|;
    var n := if |s| < 5 then |s| else 5;
    TopOfSorted(sorted, n);
    sorted[..n]
  }

  /** A prefix of a sorted list is sorted, is drawn from the list, and
      dominates everything the list holds beyond it. */
  lemma TopOfSorted(sorted: seq<Share>, n: nat)
    requires SortedByClicks(sorted) && n <= |sorted|
    ensures SortedByClicks(sorted[..n])
    ensures multiset(sorted[..n]) <= multiset(sorted)
    ensures forall x, y :: x in sorted[..n] && y in multiset(sorted) - multiset(sorted[..n]) ==> x.clickCount >= y.clickCount
  {
    PrefixDominates(sorted, n);
    assert sorted == sorted[..n] + sorted[n..];
    assert multiset(sorted) - multiset(sorted[..n]) == multiset(sorted[n..]);
  }

  datatype Overview = Overview(totalShares: nat, totalClicks: nat, totalConversions: nat,
                               conversionRate: real, viralCoefficient: real)

  /** `a / b` on counts, for a positive `b`. */
  function Ratio(a: nat, b: nat): (q: real)
    requires b > 0
    ensures q * (b as real) == a as real
    ensures q >= 0.0
  {
    (a as real) / (b as real)
  }

  /** `a / b * 100` on counts, for a positive `b`. */
  function Percent(a: nat, b: nat): (p: real)
    requires b > 0
    ensures p * (b as real) == (a as real) * 100.0
  {
    var q := Ratio(a, b);
    assert q * 100.0 * (b as real) == (q * (b as real)) * 100.0;
    q * 100.0
  }

  datatype UserAnalytics = UserAnalytics(overview: Overview, topShares: seq<Share>)

  /** The overview of a list of shares: their number, the click and
      conversion sums, conversions per hundred clicks (0 without clicks) and
      conversions per share (0 without shares). */
  function OverviewOf(w: seq<Share>): (o: Overview)
    ensures o.totalShares == |w|
    ensures o.totalClicks == SumClicks(w)
    ensures o.totalConversions == SumConversions(w)
    ensures o.totalClicks == 0 ==> o.conversionRate == 0.0
    ensures o.totalClicks > 0 ==> o.conversionRate * (o.totalClicks as real) == (o.totalConversions as real) * 100.0
    ensures o.totalShares == 0 ==> o.viralCoefficient == 0.0
    ensures o.totalShares > 0 ==> o.viralCoefficient * (o.totalShares as real) == o.totalConversions as real
  {
    var totalShares, totalClicks, totalConversions := |w|, SumClicks(w), SumConversions(w);
    var conversionRate := if totalClicks > 0 then Percent(totalConversions, totalClicks) else 0.0;
    var viral := if totalShares > 0 then Ratio(totalConversions, totalShares) else 0.0;
    Overview(totalShares, totalClicks, totalConversions, conversionRate, viral)
  }

  /** Thirty days in milliseconds: the default window. */
  const DefaultWindow: int := 30 * 24 * 60 * 60 * 1000

  /** The caller's shares `getUserAnalytics` reads at time `now`: those
      created in the window, which defaults to the last thirty days up to
      now. */
  function Window(db: Db, uid: nat, startDate: Option<int>, endDate: Option<int>, now: int): seq<Share> {
    InWindow(db.shares, uid, startDate.GetOr(now - DefaultWindow), endDate.GetOr(now))
  }

  /** `getUserAnalytics` at time `now`: the overview of the caller's shares
      in the window and the five most-clicked of them. */
  function GetUserAnalytics(db: Db, caller: Option<Caller>, startDate: Option<int>, endDate: Option<int>, now: int)
    : (r: Result<UserAnalytics, Failure>)
    ensures r.Err? <==> caller.None?
    ensures r.Err? ==> r.error == ServerError
    ensures r.Ok? ==>
      && r.value.overview == OverviewOf(Window(db, caller.value.id, startDate, endDate, now))
      && r.value.topShares == TopShares(Window(db, caller.value.id, startDate, endDate, now))
  {
    match caller
    case None => Err(ServerError)
    case Some(c) =>
      var w := Window(db, c.id, startDate, endDate, now);
      Ok(UserAnalytics(OverviewOf(w), TopShares(w)))
  }

  /** Every share the overview counts, and every top share, is one of the
      caller's shares created inside the window. */
  lemma AnalyticsStayInWindow(db: Db, c: Caller, startDate: Option<int>, endDate: Option<int>, now: int)
    ensures var r := GetUserAnalytics(db, Some(c), startDate, endDate, now);
      var lo, hi := startDate.GetOr(now - DefaultWindow), endDate.GetOr(now);
      && r.value.overview.totalShares
           == |InWindow(db.shares, c.id, lo, hi)|
      && forall s :: s in r.value.topShares ==>
           s in db.shares && s.userId == c.id && lo <= s.createdAt <= hi
  {
    var w := Window(db, c.id, startDate, endDate, now);
    var top := TopShares(w);
    forall s | s in top ensures s in w {
      assert s in multiset(top);
    }
  }

  // ---------------------------------------------------------------- global

  /** The head-count figures of the global dashboard. `conversionRate` is
      absent when there are no users and the division is not a number. */
  datatype Kpi = Kpi(totalUsers: nat, premiumUsers: nat, conversionRate: Option<real>,
                     totalReports: nat, totalShares: nat)

  /** The ids of the users on the premium plan. */
  function PremiumIds(users: map<nat, User>): (s: set<nat>)
    ensures s <= users.Keys
    ensures forall id :: id in s <==> id in users && users[id].subscriptionType == Premium
  {
    set id | id in users && users[id].subscriptionType == Premium
  }

  /** `getGlobalAnalytics`: 403 for any caller who is not a super-admin,
      before any table is read; a missing caller fails with 500. */
  function GetGlobalAnalytics(db: Db, caller: Option<Caller>): (r: Result<Kpi, Failure>)
    ensures caller.None? ==> r == Err(ServerError)
    ensures caller.Some? && caller.value.role != SuperAdmin ==> r == Err(Forbidden)
    ensures r.Ok? <==> caller.Some? && caller.value.role == SuperAdmin
    ensures r.Ok? ==>
      && r.value.totalUsers == |db.users|
      && r.value.premiumUsers == |PremiumIds(db.users)|
      && r.value.premiumUsers <= r.value.totalUsers
      && r.value.totalReports == |db.reports|
      && r.value.totalShares == |db.shares|
      && (r.value.conversionRate.Some? <==> r.value.totalUsers > 0)
      && (r.value.conversionRate.Some? ==>
            r.value.conversionRate.value * (r.value.totalUsers as real) == (r.value.premiumUsers as real) * 100.0)
  {
    match caller
    case None => Err(ServerError)
    case Some(c) =>
      if c.role != SuperAdmin then Err(Forbidden)
      else
        var premium := PremiumIds(db.users);
        var total := |db.users|;
        var premiumCount := |premium|;
        SubsetCard(premium, db.users.Keys);
        Ok(Kpi(total, premiumCount,
               if total > 0 then Some((premiumCount as real) / (total as real) * 100.0) else None,
               |db.reports|, |db.shares|))
  }

  lemma SubsetCard(a: set<nat>, b: set<nat>)
    requires a <= b
    ensures |a| <= |b|
  {
    if a != {} {
      var x :| x in a;
      SubsetCard(a - {x}, b - {x});
    }
  }

  /** A refused caller gets the same answer whatever the tables hold. */
  lemma RefusalReadsNothing(db1: Db, db2: Db, caller: Option<Caller>)
    requires caller.None? || caller.value.role != SuperAdmin
    ensures GetGlobalAnalytics(db1, caller) == GetGlobalAnalytics(db2, caller)
  {
  }

  // ---------------------------------------------------------------- caller

  /** The payload the login and registration handlers sign: the user id. */
  datatype TokenPayload = TokenPayload(userId: nat, user: Option<Caller>)

  /** `generateToken(userId)`: the payload carries no user object. The id
      is taken to be the user's primary key; the login and registration
      handlers pass `user._id`, which a users-table row does not have, and
      that undefined id is not modelled. */
  function GenerateToken(userId: nat): (p: TokenPayload)
    ensures p.userId == userId && p.user.None?
  {
    TokenPayload(userId, None)
  }

  /** `req.user` as the authentication middleware sets it from a verified
      payload. */
  function RequestUser(p: TokenPayload): Option<Caller> {
    p.user
  }

  /** With the tokens the server issues, `req.user` is undefined, so the
      three analytics handlers behind authentication fail with 500 for every
      signed-in user, super-admins included. */
  lemma IssuedTokensBreakAnalytics(db: Db, userId: nat, reportId: Option<nat>, platform: Option<string>,
                                   shareId: Option<string>, now: int)
    ensures var caller := RequestUser(GenerateToken(userId));
      && TrackShare(db, caller, reportId, platform, shareId, now) == (db, Err(ServerError))
      && GetUserAnalytics(db, caller, None, None, now) == Err(ServerError)
      && GetGlobalAnalytics(db, caller) == Err(ServerError)
  {
  }

  /** The caller from the id the middleware does set, `req.userId`, looked
      up in the users table. This repairs only the missing `req.user`: the
      id must also be signed correctly, and the share and event tables
      registered, before the handlers can answer. */
  function RequestCaller(db: Db, p: TokenPayload): (c: Option<Caller>)
    ensures c.Some? <==> p.userId in db.users
    ensures c.Some? ==> c.value == Caller(p.userId, db.users[p.userId].role)
  {
    if p.userId in db.users then Some(Caller(p.userId, db.users[p.userId].role)) else None
  }

  /** Resolving the caller by id, an issued token reaches the global figures
      exactly when it belongs to a super-admin, and the user overview for
      every existing user. The model's tables are all registered and the
      token carries the user's primary key; in the source neither holds,
      so this states the caller part of the repair and not a working
      handler. */
  lemma ResolvedCallerReachesAnalytics(db: Db, userId: nat, now: int)
    ensures var caller := RequestCaller(db, GenerateToken(userId));
      && (GetGlobalAnalytics(db, caller).Ok? <==> userId in db.users && db.users[userId].role == SuperAdmin)
      && (GetUserAnalytics(db, caller, None, None, now).Ok? <==> userId in db.users)
  {
  }
}

=== FILE: calculator_form.dfy ===
/** The calculator's three-step form: consumption, building, details. Moving
    forward and calculating are gated by per-step validation. */
module CalculatorForm {
  import opened Common
  import opened Records

  /** The form's fields as the component initialises them. */
  const InitialForm: FormData := map["consumption" := "", "bill" := "", "area" := "",
    "heatingType" := "gas", "buildingType" := "residenziale", "occupants" := "", "usageTime" := ""]

  /** The form value of a field; a field never set reads as empty, which is
      falsy like `undefined`. */
  function Field(form: FormData, name: string): string {
    if name in form then form[name] else ""
  }

  /** A string is truthy when it is not empty. */
  predicate Filled(form: FormData, name: string) {
    Field(form, name) != ""
  }

  /** `validateStep(step)`: step 1 needs consumption and bill, step 2 area and
      building type, step 3 nothing; any other step fails. */
  function ValidateStep(form: FormData, step: int): (ok: bool)
    ensures step == 1 ==> (ok <==> Filled(form, "consumption") && Filled(form, "bill"))
    ensures step == 2 ==> (ok <==> Filled(form, "area") && Filled(form, "buildingType"))
    ensures step == 3 ==> ok
    ensures step !in {1, 2, 3} ==> !ok
  {
    if step == 1 then Filled(form, "consumption") && Filled(form, "bill")
    else if step == 2 then Filled(form, "area") && Filled(form, "buildingType")
    else step == 3
  }

  datatype FormState = FormState(step: int, form: FormData)

  const InitialState := FormState(1, InitialForm)

  /** `handleInputChange`: sets the named field, nothing else. */
  function HandleInputChange(st: FormState, name: string, value: string): (st': FormState)
    ensures st'.step == st.step
    ensures st'.form.Keys == st.form.Keys + {name}
    ensures Field(st'.form, name) == value
    ensures forall k :: k != name ==> Field(st'.form, k) == Field(st.form, k)
  {
    st.(form := st.form[name := value])
  }

  /** `handleNext`: one step forward when the current step validates, else
      an alert (`true`) and no move. */
  function HandleNext(st: FormState): (r: (FormState, bool))
    ensures r.0.form == st.form
    ensures r.0.step == st.step + 1 <==> ValidateStep(st.form, st.step)
    ensures r.0.step == st.step <==> r.1
    ensures r.0.step == st.step || r.0.step == st.step + 1
  {
    if ValidateStep(st.form, st.step) then (st.(step := st.step + 1), false)
    else (st, true)
  }

  /** `handlePrevious`: one step back, never below 1. */
  function HandlePrevious(st: FormState): (st': FormState)
    ensures st'.form == st.form
    ensures st'.step >= 1
    ensures st.step > 1 ==> st'.step == st.step - 1
    ensures st.step <= 1 ==> st'.step == 1
  {
    st.(step := if st.step - 1 < 1 then 1 else st.step - 1)
  }

  /** `handleCalculate`: hands the form to the calculation only when the
      first two steps validate, whatever step is showing; else an alert
      (`None`). */
  function HandleCalculate(st: FormState): (r: Option<FormData>)
    ensures r.Some? <==> ValidateStep(st.form, 1) && ValidateStep(st.form, 2)
    ensures r.Some? ==> r.value == st.form
    ensures r.Some? ==> Filled(r.value, "consumption") && Filled(r.value, "bill") && Filled(r.value, "area")
  {
    if ValidateStep(st.form, 1) && ValidateStep(st.form, 2) then Some(st.form) else None
  }

  /** What a visitor can do: type into a field, or press one of the buttons
      on screen. */
  datatype Action = Input(name: string, value: string) | Previous | Next | Calculate

  /** The state after an action. "Back" is hidden on step 1, "Next" shows
      below step 3 and "Calculate" from step 3 on; pressing a hidden button
      does nothing. */
  function Step(st: FormState, a: Action): FormState {
    match a
    case Input(name, value) => HandleInputChange(st, name, value)
    case Previous => if st.step == 1 then st else HandlePrevious(st)
    case Next => if st.step < 3 then HandleNext(st).0 else st
    case Calculate => st
  }

  function Run(st: FormState, actions: seq<Action>): FormState
    decreases |actions|
  {
    if |actions| == 0 then st else Run(Step(st, actions[0]), actions[1..])
  }

  /** The form shows one of its three steps and keeps every initial field. */
  ghost predicate Reachable(st: FormState) {
    1 <= st.step <= 3 && InitialForm.Keys <= st.form.Keys
  }

  /** Every action keeps the form on one of its three steps with all its
      fields. */
  lemma StepKeepsReachable(st: FormState, a: Action)
    requires Reachable(st)
    ensures Reachable(Step(st, a))
  {
  }

  /** From the initial form, every sequence of actions leaves the form on
      step 1, 2 or 3 with all its fields. */
  lemma {:induction false} RunKeepsReachable(st: FormState, actions: seq<Action>)
    requires Reachable(st)
    ensures Reachable(Run(st, actions))
    decreases |actions|
  {
    if |actions| > 0 {
      StepKeepsReachable(st, actions[0]);
      RunKeepsReachable(Step(st, actions[0]), actions[1..]);
    }
  }

  lemma InitialReachable()
    ensures Reachable(InitialState)
  {
  }
}

=== FILE: calculator_page.dfy ===
/** The calculator page: its own copy of the classifier, the savings and tip
    helpers, the results it derives from the form, and saving a report to
    browser storage. */
module CalculatorPage {
  import opened Common
  import opened Scoring
  import opened Records
  import Storage

  /** `calculateEfficiencyLevel`, as the page writes it: a cascade of strict
      `<` tests on consumption per square metre. It agrees with the reference
      table for every input, including a zero area. */
  function EfficiencyLevel(consumption: real, area: real): (e: Efficiency)
    ensures e == Classify(Divide(consumption, area))
  {
    var consumptionPerArea := Divide(consumption, area);
    ClassifyCascade(consumptionPerArea);
    if Below(consumptionPerArea, 5.0) then Efficiency(Ottimo, 90, "#059669", 0.3)
    else if Below(consumptionPerArea, 10.0) then Efficiency(Buono, 75, "#2563eb", 0.5)
    else if Below(consumptionPerArea, 15.0) then Efficiency(Medio, 60, "#eab308", 0.7)
    else if Below(consumptionPerArea, 20.0) then Efficiency(Scarso, 40, "#f97316", 0.9)
    else Efficiency(Critico, 25, "#dc2626", 1.0)
  }

  /** `generateTips`, as the page writes it: LED lighting first when the score
      is below 50, then insulation and smart control. It builds exactly the
      list the reference rule table does. */
  function GenerateTips(score: int): (tips: seq<Tip>)
    ensures tips == Scoring.GenerateTips(score)
  {
    TipsShape(score);
    var led := if score < 50 then
      [Tip("Illuminazione LED", "Sostituisci tutte le lampade con LED ad alta efficienza",
           "Fino al 80% sui consumi di illuminazione", Some(Alta))]
      else [];
    led
    + [Tip("Isolamento termico", "Migliora l'isolamento di pareti e infissi",
           "Riduzione del 30% sui costi di riscaldamento", Some(Media))]
    + [Tip("Gestione intelligente", "Installa termostati smart e sistemi di controllo",
           "Ottimizzazione automatica dei consumi", Some(Media))]
  }

  /** The page's results object. */
  datatype Results = Results(formData: FormData, efficiency: Efficiency, savings: Savings,
                             investment: real, roi: real, co2: real, tips: seq<Tip>)

  /** `calculateResults(formData)`, given the form and the three numbers
      `parseFloat` reads from it. */
  function CalculateResults(formData: FormData, consumption: real, bill: real, area: real): (r: Results)
    ensures r.formData == formData
    ensures r.efficiency == Classify(Divide(consumption, area))
    ensures r.savings.monthly == bill * 0.45 * r.efficiency.factor
    ensures r.savings.annual == 12.0 * r.savings.monthly
    ensures r.investment == 35.0 * area
    ensures r.savings.annual != 0.0 ==> r.roi * r.savings.annual == r.investment
    ensures r.savings.annual == 0.0 ==> r.roi == r.investment
    ensures r.co2 == 6.0 * consumption
    ensures r.tips == Scoring.GenerateTips(r.efficiency.score)
  {
    var efficiencyLevel := EfficiencyLevel(consumption, area);
    var savingsPotential := SavingsPotential(bill, efficiencyLevel.factor);
    var investment := Investment(area);
    var roi := Roi(investment, savingsPotential.annual);
    Results(formData, efficiencyLevel, savingsPotential, investment, roi, ClientCo2(consumption),
            GenerateTips(efficiencyLevel.score))
  }

  /** The record `saveReport` builds from the current results at time `now`. */
  function ReportOf(results: Results, now: int): LocalReport {
    LocalReport(now, now, results.formData,
                StoredResults(results.efficiency, results.savings, results.investment, results.roi, results.co2))
  }

  /** `saveReport()` at time `now`: without results nothing happens; otherwise
      the stored list is read, the new report appended, and the list saved
      back. A read that does not yield a list makes the spread throw. */
  function SaveReport(results: Option<Results>, s: Storage.Store, now: int): (r: Result<Storage.Store, Storage.ReadFault>)
    ensures results.None? ==> r == Ok(s)
    ensures r.Err? <==> results.Some? && Storage.GetReports(s, now).0.Err?
  {
    match results
    case None => Ok(s)
    case Some(res) =>
      var (read, s1) := Storage.GetReports(s, now);
      match read
      case Err(fault) => Err(fault)
      case Ok(existing) => Ok(Storage.SaveReports(s1, existing + [ReportOf(res, now)], now))
  }

  /** Saving appends exactly one report: afterwards the list reads back as
      the list readable just before, plus the new report at the end. */
  lemma SaveReportAppendsOne(results: Results, s: Storage.Store, now: int)
    requires Storage.GetReports(s, now).0.Ok?
    ensures SaveReport(Some(results), s, now).Ok?
    ensures Storage.GetReports(SaveReport(Some(results), s, now).value, now).0
            == Ok(Storage.GetReports(s, now).0.value + [ReportOf(results, now)])
  {
    var (read, s1) := Storage.GetReports(s, now);
    var list := read.value + [ReportOf(results, now)];
    assert Storage.IsUserRegistered(s1) == Storage.IsUserRegistered(s);
    if Storage.IsUserRegistered(s1) {
      Storage.RegisteredRoundTrip(s1, list, now, now);
    } else {
      Storage.GuestRoundTrip(s1, list, now, now);
    }
  }
}

=== FILE: common.dfy ===
/** Shared vocabulary: optional values, results, and the JavaScript value
    semantics (truthiness, `||`, `parseFloat`, `Math.max`) that the rest of the
    model relies on. */
module Common {

  /** A value that may be missing (`undefined`/`null` in the source). */
  datatype Option<+T> = None | Some(value: T) {
    function GetOr(default: T): T {
      match this
      case Some(v) => v
      case None => default
    }
  }

  /** A value or an error. */
  datatype Result<+T, +E> = Ok(value: T) | Err(error: E)

  /** A numeric-ish value as it arrives in a JSON request body or sits in a
      JavaScript object slot. A string carries the number `parseFloat` reads
      from it (`None` for NaN): parsing strings itself is not modelled. */
  datatype Raw =
    | Absent                                    // undefined or null
    | Number(x: real)                           // a finite JSON number
    | NotANumber                                // NaN
    | Text(s: string, asFloat: Option<real>)    // a string and its parseFloat reading

  /** JavaScript truthiness of a `Raw`. */
  predicate Truthy(v: Raw) {
    match v
    case Absent => false
    case Number(x) => x != 0.0
    case NotANumber => false
    case Text(s, _) => s != ""
  }

  /** The JavaScript expression `a || b`. */
  function Or(a: Raw, b: Raw): Raw {
    if Truthy(a) then a else b
  }

  /** `parseFloat(v)`, with `None` standing for NaN. */
  function ParseFloat(v: Raw): Option<real> {
    match v
    case Absent => None
    case Number(x) => Some(x)
    case NotANumber => None
    case Text(_, f) => f
  }

  /** `isNaN(x) ? 0 : x`: the NaN guard the report controller applies. */
  function ZeroIfNaN(x: Option<real>): (r: real)
    ensures x.None? ==> r == 0.0
    ensures x.Some? ==> r == x.value
  {
    x.GetOr(0.0)
  }

  /** `Math.max(0, x)` on integers. */
  function MaxZero(x: int): (r: nat)
    ensures r >= x
    ensures r == x || r == 0
  {
    if x < 0 then 0 else x
  }

  /** `Math.max(0, x)` on reals. */
  function MaxZeroReal(x: real): (r: real)
    ensures r >= 0.0 && r >= x
    ensures r == x || r == 0.0
  {
    if x < 0.0 then 0.0 else x
  }
}

=== FILE: energy_optimizer.dfy ===
/** The all-in-one optimizer component: a second copy of the classifier and
    helpers, an input guard before calculating, a session-local list of saved
    reports, and a three-step wizard with no validation on "next". */
module EnergyOptimizer {
  import opened Common
  import opened Scoring
  import opened Records

  /** `calculateEfficiencyLevel`, the component's copy. */
  function EfficiencyLevel(consumption: real, area: real): (e: Efficiency)
    ensures e == Classify(Divide(consumption, area))
  {
    var consumptionPerArea := Divide(consumption, area);
    ClassifyCascade(consumptionPerArea);
    if Below(consumptionPerArea, 5.0) then Efficiency(Ottimo, 90, "#059669", 0.3)
    else if Below(consumptionPerArea, 10.0) then Efficiency(Buono, 75, "#2563eb", 0.5)
    else if Below(consumptionPerArea, 15.0) then Efficiency(Medio, 60, "#eab308", 0.7)
    else if Below(consumptionPerArea, 20.0) then Efficiency(Scarso, 40, "#f97316", 0.9)
    else Efficiency(Critico, 25, "#dc2626", 1.0)
  }

  /** `calculateSavingsPotential`, the component's copy. */
  function SavingsPotential(bill: real, factor: real): (s: Savings)
    ensures s == Scoring.SavingsPotential(bill, factor)
  {
    var basePotential := bill * 0.45;
    Savings(basePotential * factor, basePotential * factor * 12.0, RoundHalfUp(45.0 * factor))
  }

  /** `generateTips`, the component's copy: the same titles, descriptions and
      savings texts in the same order as the reference table, with an icon in
      place of a priority. */
  function GenerateTips(score: int): (tips: seq<Tip>)
    ensures |tips| == |Scoring.GenerateTips(score)|
    ensures forall i :: 0 <= i < |tips| ==>
      tips[i] == Scoring.GenerateTips(score)[i].(priority := None)
  {
    TipsShape(score);
    var led := if score < 50 then
      [Tip("Illuminazione LED", "Sostituisci tutte le lampade con LED ad alta efficienza",
           "Fino al 80% sui consumi di illuminazione", None)]
      else [];
    led
    + [Tip("Isolamento termico", "Migliora l'isolamento di pareti e infissi",
           "Riduzione del 30% sui costi di riscaldamento", None)]
    + [Tip("Gestione intelligente", "Installa termostati smart e sistemi di controllo",
           "Ottimizzazione automatica dei consumi", None)]
  }

  /** The component's results object. */
  datatype Results = Results(efficiency: Efficiency, savings: Savings, investment: real,
                             roi: real, co2: real, tips: seq<Tip>)

  /** A report in the component's session list. */
  datatype SavedReport = SavedReport(id: int, date: int, formData: FormData, results: Results)

  /** The component's state. */
  datatype Session = Session(formData: FormData, results: Option<Results>, step: int, saved: seq<SavedReport>)

  const InitialForm: FormData := map["consumption" := "", "bill" := "", "area" := "",
    "heatingType" := "gas", "buildingType" := "residenziale", "occupants" := "", "usageTime" := ""]

  const InitialSession := Session(InitialForm, None, 1, [])

  /** `handleInputChange`: sets the named field and nothing else. */
  function HandleInputChange(s: Session, name: string, value: string): (s': Session)
    ensures name in s'.formData && s'.formData[name] == value
    ensures forall k :: k != name ==> (k in s'.formData <==> k in s.formData)
    ensures forall k :: k != name && k in s.formData ==> s'.formData[k] == s.formData[k]
    ensures s'.results == s.results && s'.step == s.step && s'.saved == s.saved
  {
    s.(formData := s.formData[name := value])
  }

  /** `!parseFloat(field)`: the parsed number is NaN (`None`) or zero. */
  predicate Falsy(x: Option<real>) {
    x.None? || x.value == 0.0
  }

  /** `calculateResults()`, given what `parseFloat` reads from the three
      fields: when any is NaN or zero the results stay as they were;
      otherwise they are replaced, and the ratio is a finite number. */
  function CalculateResults(s: Session, consumption: Option<real>, bill: Option<real>, area: Option<real>): (s': Session)
    ensures Falsy(consumption) || Falsy(bill) || Falsy(area) ==> s' == s
    ensures !(Falsy(consumption) || Falsy(bill) || Falsy(area)) ==>
      && s'.results.Some?
      && s'.results.value.efficiency == Classify(Finite(consumption.value / area.value))
      && s'.results.value.savings == Scoring.SavingsPotential(bill.value, s'.results.value.efficiency.factor)
      && s'.results.value.savings.monthly == bill.value * 0.45 * s'.results.value.efficiency.factor
      && s'.results.value.savings.annual == 12.0 * s'.results.value.savings.monthly
      && s'.results.value.investment == 35.0 * area.value
      && (s'.results.value.savings.annual != 0.0 ==>
            s'.results.value.roi * s'.results.value.savings.annual == s'.results.value.investment)
      && (s'.results.value.savings.annual == 0.0 ==> s'.results.value.roi == s'.results.value.investment)
      && s'.results.value.tips == GenerateTips(s'.results.value.efficiency.score)
      && s'.results.value.co2 == ClientCo2(consumption.value)
      && s' == s.(results := s'.results)
  {
    if Falsy(consumption) || Falsy(bill) || Falsy(area) then s
    else
      var c, b, a := consumption.value, bill.value, area.value;
      var efficiencyLevel := EfficiencyLevel(c, a);
      var savingsPotential := SavingsPotential(b, efficiencyLevel.factor);
      var investment := a * 35.0;
      var roi := Roi(investment, savingsPotential.annual);
      s.(results := Some(Results(efficiencyLevel, savingsPotential, investment, roi, c * 0.5 * 12.0,
                                 GenerateTips(efficiencyLevel.score))))
  }

  /** `saveReport()` at time `now`: nothing without results; otherwise exactly
      one report, holding the current form and results, is appended. */
  function SaveReport(s: Session, now: int): (s': Session)
    ensures s.results.None? ==> s' == s
    ensures s.results.Some? ==>
      && |s'.saved| == |s.saved| + 1
      && s'.saved[..|s.saved|] == s.saved
      && s'.saved[|s.saved|].formData == s.formData
      && s'.saved[|s.saved|].results == s.results.value
      && s' == s.(saved := s'.saved)
  {
    if s.results.None? then s
    else s.(saved := s.saved + [SavedReport(now, now, s.formData, s.results.value)])
  }

  /** The wizard's buttons. "Back" is hidden on step 1 and "Next" is offered
      only below step 3, where "Calculate" takes its place. */
  datatype Button = Back | Next

  /** The step after pressing a button; a hidden button does nothing. */
  function Press(step: int, b: Button): (step': int)
    ensures step >= 1 ==> step' >= 1
    ensures b == Back && step > 1 ==> step' == step - 1
    ensures b == Back && step <= 1 ==> step' == 1
    ensures b == Next ==> step' == (if step < 3 then step + 1 else step)
  {
    match b
    case Back => if step == 1 then step else if step - 1 < 1 then 1 else step - 1
    case Next => if step < 3 then step + 1 else step
  }

  /** The step after a sequence of presses. */
  function Run(step: int, presses: seq<Button>): int
    decreases |presses|
  {
    if |presses| == 0 then step else Run(Press(step, presses[0]), presses[1..])
  }

  /** From any step in 1..3 every sequence of presses stays in 1..3. */
  lemma {:induction false} StepsStayInRange(step: int, presses: seq<Button>)
    requires 1 <= step <= 3
    ensures 1 <= Run(step, presses) <= 3
    decreases |presses|
  {
    if |presses| > 0 {
      StepsStayInRange(Press(step, presses[0]), presses[1..]);
    }
  }
}

=== FILE: monetization.dfy ===
/** The two deterministic helpers of the monetization utilities: the user's
    gamification level by report count, and the itemised "value" of a
    premium report. */
module Monetization {
  import opened Common

  datatype Level = Principiante | EsploratoreGreen | RisparmiatorePro | CampioneEfficienza | MasterEnergySaver

  /** A level with its display name, icon, and the count that reaches the
      next level (`None` at the top). */
  datatype UserLevel = UserLevel(level: Level, name: string, icon: string, next: Option<nat>)

  /** The levels in order, lowest first. */
  function Rank(l: Level): nat {
    match l
    case Principiante => 0
    case EsploratoreGreen => 1
    case RisparmiatorePro => 2
    case CampioneEfficienza => 3
    case MasterEnergySaver => 4
  }

  /** `getUserLevel(reports)` on the number of reports. */
  function GetUserLevel(count: nat): (u: UserLevel)
    ensures u.next.Some? ==> count < u.next.value
    ensures u.next.None? <==> u.level == MasterEnergySaver
    ensures count == 0 ==> u.level == Principiante
    ensures count >= 25 ==> u.level == MasterEnergySaver
  {
    if count == 0 then UserLevel(Principiante, "Principiante", "🌱", Some(1))
    else if count < 3 then UserLevel(EsploratoreGreen, "Esploratore Green", "🌿", Some(3))
    else if count < 10 then UserLevel(RisparmiatorePro, "Risparmiatore Pro", "🌳", Some(10))
    else if count < 25 then UserLevel(CampioneEfficienza, "Campione Efficienza", "🏆", Some(25))
    else UserLevel(MasterEnergySaver, "Master Energy Saver", "👑", None)
  }

  /** The thresholds as a table: the level a count reaches is the number of
      thresholds 1, 3, 10, 25 it has passed. */
  function Passed(count: nat): nat {
    (if count >= 1 then 1 else 0) + (if count >= 3 then 1 else 0)
    + (if count >= 10 then 1 else 0) + (if count >= 25 then 1 else 0)
  }

  /** The cascade picks the level the threshold table gives, and `next` is
      the count where the rank goes up. */
  lemma LevelMatchesThresholds(count: nat)
    ensures Rank(GetUserLevel(count).level) == Passed(count)
    ensures GetUserLevel(count).next.Some? ==>
      Passed(GetUserLevel(count).next.value) == Passed(count) + 1
      && forall c: nat :: count <= c < GetUserLevel(count).next.value ==> Passed(c) == Passed(count)
  {
  }

  /** More reports never give a lower level. */
  lemma LevelMonotone(c1: nat, c2: nat)
    requires c1 <= c2
    ensures Rank(GetUserLevel(c1).level) <= Rank(GetUserLevel(c2).level)
  {
    LevelMatchesThresholds(c1);
    LevelMatchesThresholds(c2);
  }

  datatype Component = Component(item: string, value: nat)

  datatype ReportValue = ReportValue(components: seq<Component>, total: nat, discount: nat, savings: int)

  const Components: seq<Component> := [
    Component("Analisi consumi dettagliata", 49),
    Component("Piano risparmio personalizzato", 79),
    Component("Consulenza scritta esperto", 97),
    Component("Lista fornitori certificati", 39),
    Component("Guida incentivi fiscali", 59),
    Component("Supporto prioritario 12 mesi", 120)
  ]

  /** The sum of the component values, as `reduce` folds it from the left. */
  function SumValues(cs: seq<Component>): nat {
    if |cs| == 0 then 0 else SumValues(cs[..|cs| - 1]) + cs[|cs| - 1].value
  }

  /** The price of the annual premium plan. */
  const AnnualPremiumPrice: nat := 79

  /** `calculateReportValue()`: the six components, their total, the real
      price and the difference. */
  function CalculateReportValue(): (v: ReportValue)
    ensures v.components == Components
    ensures v.total == SumValues(v.components)
    ensures v.discount == AnnualPremiumPrice
    ensures v.savings == v.total - v.discount
  {
    var total := SumValues(Components);
    ReportValue(Components, total, AnnualPremiumPrice, total - AnnualPremiumPrice)
  }

  /** The advertised numbers: 443 in components, 79 paid, 364 "saved". */
  lemma ReportValueFigures()
    ensures CalculateReportValue().total == 443
    ensures CalculateReportValue().savings == 364
  {
    var cs := Components;
    assert SumValues(cs) == 49 + 79 + 97 + 39 + 59 + 120 by {
      assert cs[..5][..4] == cs[..4];
      assert cs[..4][..3] == cs[..3];
      assert cs[..3][..2] == cs[..2];
      assert cs[..2][..1] == cs[..1];
      assert SumValues(cs[..1]) == 49;
      assert SumValues(cs[..2]) == 49 + 79;
      assert SumValues(cs[..3]) == 49 + 79 + 97;
      assert SumValues(cs[..4]) == 49 + 79 + 97 + 39;
      assert SumValues(cs[..5]) == 49 + 79 + 97 + 39 + 59;
    }
  }
}

=== FILE: premium_limits.dfy ===
/** The `usePremiumLimits` hook: how many reports a visitor may still create,
    read from browser storage and the signed-in user's plan. */
module PremiumLimits {
  import opened Common
  import opened Users
  import Storage
  import CalculatorPage

  /** The hook's `reportCount`: a number of reports, or `undefined` when the
      parsed storage value has no `length`. */
  datatype Count = Known(n: nat) | Undefined

  /** `count >= k`; `undefined >= k` is false. */
  predicate AtLeast(count: Count, k: nat) {
    count.Known? && count.n >= k
  }

  /** The count the hook's effect reads: `JSON.parse(raw || '[]').length`.
      `None` when the stored text is not JSON, so the parse throws and the
      count is not set. A guest's saved list is wrapped in an object, whose
      `length` is `undefined`. */
  function HookCount(s: Storage.Store): (c: Option<Count>)
    ensures Storage.Missing(s, Storage.ReportsKey) ==> c == Some(Known(0))
    ensures !Storage.Missing(s, Storage.ReportsKey) ==>
      && (c.None? <==> !Storage.IsJson(s[Storage.ReportsKey]))
      && (s[Storage.ReportsKey].ReportList? ==> c == Some(Known(|s[Storage.ReportsKey].reports|)))
      && (s[Storage.ReportsKey].Envelope? ==> c == Some(Undefined))
  {
    if Storage.Missing(s, Storage.ReportsKey) then Some(Known(0))
    else match s[Storage.ReportsKey]
      case ReportList(rs) => Some(Known(|rs|))
      case Envelope(_, _, _) => Some(Undefined)
      case UserRecord(_, _) => Some(Undefined)
      case _ => None
  }

  /** The effect on `isAuthenticated`: only a visitor who is not signed in
      has the count loaded; otherwise, and when the parse throws, the count
      keeps its current value (initially 0). */
  function LoadCount(authenticated: bool, current: Count, s: Storage.Store): (c: Count)
    ensures authenticated ==> c == current
    ensures !authenticated && HookCount(s).Some? ==> c == HookCount(s).value
    ensures !authenticated && HookCount(s).None? ==> c == current
  {
    if authenticated then current
    else match HookCount(s)
      case Some(n) => n
      case None => current
  }

  /** The value of `user?.subscriptionPlan`: `None` when there is no user. */
  type PlanField = Option<Attr>

  const FreePlan: PlanField := Some(AStr("free"))

  /** Which upgrade prompt `checkReportLimit` shows. */
  datatype Prompt = GuestLimitPrompt | MonthlyLimitPrompt

  /** What `checkReportLimit` does: whether creation may go ahead, the prompt
      shown, and whether it then navigates to the pricing page. */
  datatype LimitCheck = LimitCheck(allowed: bool, prompt: Option<Prompt>, toPricing: bool)

  /** `checkReportLimit()`, with `confirmed` the answer to the prompt: a
      visitor is stopped from one report on, a signed-in "free" plan from
      three on; a stopped caller is prompted, and moves to pricing only when
      confirming. */
  function CheckReportLimit(authenticated: bool, plan: PlanField, count: Count, confirmed: bool): (r: LimitCheck)
    ensures !authenticated ==> (r.allowed <==> !AtLeast(count, 1))
    ensures authenticated ==> (r.allowed <==> !(plan == FreePlan && AtLeast(count, 3)))
    ensures r.allowed <==> r.prompt.None?
    ensures !authenticated && !r.allowed ==> r.prompt == Some(GuestLimitPrompt)
    ensures authenticated && !r.allowed ==> r.prompt == Some(MonthlyLimitPrompt)
    ensures r.toPricing <==> !r.allowed && confirmed
  {
    if !authenticated && AtLeast(count, 1) then LimitCheck(false, Some(GuestLimitPrompt), confirmed)
    else if authenticated && plan == FreePlan && AtLeast(count, 3) then
      LimitCheck(false, Some(MonthlyLimitPrompt), confirmed)
    else LimitCheck(true, None, false)
  }

  /** `isPremium()`: signed in and on the "premium" or "business" plan. */
  function IsPremium(authenticated: bool, plan: PlanField): (b: bool)
    ensures b <==> authenticated && plan.Some? && plan.value in {AStr("premium"), AStr("business")}
  {
    authenticated && (plan == Some(AStr("premium")) || plan == Some(AStr("business")))
  }

  /** `canCreateReport`: a visitor only while the count is below 1 (never
      when it is `undefined`); a signed-in user always. */
  function CanCreateReport(authenticated: bool, count: Count): (b: bool)
    ensures authenticated ==> b
    ensures !authenticated ==> (b <==> count.Known? && count.n == 0)
  {
    if !authenticated then count.Known? && count.n < 1 else true
  }

  /** `remainingReports`: a number, or NaN when the count is `undefined`. */
  datatype Remaining = Reports(n: nat) | NaNReports

  /** `Math.max(0, quota - count)`. */
  function Left(quota: nat, count: Count): (r: Remaining)
    ensures count.Known? ==> r.Reports? && r.n + count.n >= quota && (r.n == 0 || r.n + count.n == quota)
    ensures count.Undefined? ==> r.NaNReports?
  {
    match count
    case Known(n) => Reports(MaxZero(quota - n))
    case Undefined => NaNReports
  }

  /** `remainingReports`: 1 for a visitor and 3 for the "free" plan, less the
      count; 999 otherwise. */
  function RemainingReports(authenticated: bool, plan: PlanField, count: Count): (r: Remaining)
    ensures !authenticated ==> r == Left(1, count)
    ensures authenticated && plan == FreePlan ==> r == Left(3, count)
    ensures authenticated && plan != FreePlan ==> r == Reports(999)
  {
    if !authenticated then Left(1, count)
    else if plan == FreePlan then Left(3, count)
    else Reports(999)
  }

  /** With a known count the hook's three answers agree: creation is allowed
      exactly when some report remains, and for a visitor exactly when
      `canCreateReport` says so. */
  lemma LimitViewsAgree(authenticated: bool, plan: PlanField, n: nat, confirmed: bool)
    ensures var allowed := CheckReportLimit(authenticated, plan, Known(n), confirmed).allowed;
      && (allowed <==> RemainingReports(authenticated, plan, Known(n)) != Reports(0))
      && (!authenticated ==> (allowed <==> CanCreateReport(authenticated, Known(n))))
  {
  }

  // -------------------------------------------------- the guest's wrapped list

  /** The count read through `getReports`, which unwraps a guest's list: the
      number of reports a visitor actually has. */
  function StoredReportCount(s: Storage.Store, now: int): (c: Count)
    ensures Storage.GetReports(s, now).0.Ok? ==> c == Known(|Storage.GetReports(s, now).0.value|)
    ensures Storage.GetReports(s, now).0.Err? ==> c == Undefined
  {
    match Storage.GetReports(s, now).0
    case Ok(list) => Known(|list|)
    case Err(_) => Undefined
  }

  /** The hook as written, after a visitor saves a report on the calculator
      page: the slot now holds a wrapped list, so the count is `undefined`,
      the limit check lets a second report through, `canCreateReport` is
      false and the remaining count is NaN. Read through `getReports`, the
      same store shows one more report than before, and the check stops the
      visitor. */
  lemma GuestLimitNeverTrips(results: CalculatorPage.Results, s: Storage.Store, now: int, confirmed: bool)
    requires !Storage.IsUserRegistered(s)
    requires Storage.GetReports(s, now).0.Ok?
    ensures var s' := CalculatorPage.SaveReport(Some(results), s, now).value;
      && HookCount(s') == Some(Undefined)
      && CheckReportLimit(false, None, Undefined, confirmed).allowed
      && !CanCreateReport(false, Undefined)
      && RemainingReports(false, None, Undefined) == NaNReports
      && StoredReportCount(s', now) == Known(|Storage.GetReports(s, now).0.value| + 1)
      && !CheckReportLimit(false, None, StoredReportCount(s', now), confirmed).allowed
  {
    CalculatorPage.SaveReportAppendsOne(results, s, now);
    var (read, s1) := Storage.GetReports(s, now);
    assert !Storage.IsUserRegistered(s1);
  }

  // -------------------------------------------------- plan versus tier

  /** `user?.subscriptionPlan` as the hook reads it from the serialised user. */
  function HookPlan(user: Option<User>): (p: PlanField)
    ensures user.Some? ==> p == Some(PlanAttr(user.value.subscriptionPlan))
    ensures user.None? ==> p.None?
  {
    match user
    case Some(u) => Some(ToJson(u)["subscriptionPlan"])
    case None => None
  }

  /** The hook as written never recognises a plan: the serialised plan is
      "monthly", "yearly" or null, so no user is premium and no signed-in
      user ever meets the "free" limit, whatever their count. */
  lemma PlanNeverMatches(user: Option<User>, count: Count, confirmed: bool)
    ensures !IsPremium(true, HookPlan(user))
    ensures CheckReportLimit(true, HookPlan(user), count, confirmed).allowed
    ensures RemainingReports(true, HookPlan(user), count) == Reports(999)
  {
    if user.Some? {
      SerialisedPlanValues(user.value);
    }
  }

  /** The field that holds "free" and "premium": `user?.subscriptionType`. */
  function HookTier(user: Option<User>): (p: PlanField)
    ensures user.Some? && user.value.subscriptionType == Free ==> p == FreePlan
    ensures user.Some? && user.value.subscriptionType == Premium ==> p == Some(AStr("premium"))
    ensures user.None? ==> p.None?
  {
    match user
    case Some(u) => Some(ToJson(u)["subscriptionType"])
    case None => None
  }

  /** Reading the tier instead, a signed-in user is premium exactly when
      their subscription type is premium, and a free user is stopped at
      three reports. */
  lemma TierMatches(user: User, n: nat, confirmed: bool)
    ensures IsPremium(true, HookTier(Some(user))) <==> user.subscriptionType == Premium
    ensures user.subscriptionType == Free ==>
      (CheckReportLimit(true, HookTier(Some(user)), Known(n), confirmed).allowed <==> n < 3)
    ensures user.subscriptionType == Free ==> RemainingReports(true, HookTier(Some(user)), Known(n)) == Reports(MaxZero(3 - n))
  {
  }
}

=== FILE: pricing_page.dfy ===
/** The pricing page's offer countdown: hours, minutes and seconds that tick
    down once a second and start over at 23:59:59. */
module PricingPage {

  datatype Clock = Clock(hours: int, minutes: int, seconds: int)

  /** The countdown's first value. */
  const Start := Clock(23, 59, 59)

  /** The seconds left on the clock. */
  function TotalSeconds(t: Clock): int {
    t.hours * 3600 + t.minutes * 60 + t.seconds
  }

  predicate InRange(t: Clock) {
    0 <= t.hours <= 23 && 0 <= t.minutes <= 59 && 0 <= t.seconds <= 59
  }

  /** One tick of the `setTimeLeft` reducer: take a second, borrowing from
      the minutes and then the hours; at zero start over. */
  function Tick(t: Clock): (t': Clock)
    ensures t.seconds > 0 ==> t' == t.(seconds := t.seconds - 1)
    ensures t.seconds <= 0 && t.minutes > 0 ==> t' == Clock(t.hours, t.minutes - 1, 59)
    ensures t.seconds <= 0 && t.minutes <= 0 && t.hours > 0 ==> t' == Clock(t.hours - 1, 59, 59)
    ensures t.seconds <= 0 && t.minutes <= 0 && t.hours <= 0 ==> t' == Start
  {
    if t.seconds > 0 then t.(seconds := t.seconds - 1)
    else if t.minutes > 0 then Clock(t.hours, t.minutes - 1, 59)
    else if t.hours > 0 then Clock(t.hours - 1, 59, 59)
    else Start
  }

  /** On a clock in range a tick takes exactly one second off, except at
      0:00:00, where it starts over; the clock stays in range. */
  lemma TickCountsDown(t: Clock)
    requires InRange(t)
    ensures InRange(Tick(t))
    ensures TotalSeconds(t) > 0 ==> TotalSeconds(Tick(t)) == TotalSeconds(t) - 1
    ensures TotalSeconds(t) == 0 ==> Tick(t) == Start
  {
  }

  /** The clock after `n` ticks. */
  function Ticks(t: Clock, n: nat): Clock {
    if n == 0 then t else Tick(Ticks(t, n - 1))
  }

  /** One more tick moves one place along the cycle, and from its last
      place back to its first. */
  lemma NextInCycle(k: nat)
    ensures k % 86400 == 86399 ==> (k + 1) % 86400 == 0
    ensures k % 86400 < 86399 ==> (k + 1) % 86400 == k % 86400 + 1
  {
  }

  /** After `n` ticks from the start the clock shows the seconds left in the
      current day-long cycle, always in range. */
  lemma {:induction false} TicksFromStart(n: nat)
    ensures InRange(Ticks(Start, n))
    ensures TotalSeconds(Ticks(Start, n)) == 86399 - n % 86400
  {
    if n > 0 {
      TicksFromStart(n - 1);
      StepInCycle(Ticks(Start, n - 1), n - 1);
    }
  }

  /** A clock in range that shows place `k` of the cycle shows place `k + 1`
      after one tick. */
  lemma StepInCycle(t: Clock, k: nat)
    requires InRange(t) && TotalSeconds(t) == 86399 - k % 86400
    ensures InRange(Tick(t))
    ensures TotalSeconds(Tick(t)) == 86399 - (k + 1) % 86400
  {
    TickCountsDown(t);
    NextInCycle(k);
  }
}

=== FILE: records.dfy ===
/** The shapes of the objects the client keeps: the calculator's form data and
    the report records it saves to browser storage. */
module Records {
  import opened Scoring

  /** A form's fields by name; every value is the text of an input. */
  type FormData = map<string, string>

  /** The `results` object a saved report carries. */
  datatype StoredResults = StoredResults(efficiency: Efficiency, savings: Savings, investment: real, roi: real, co2: real)

  /** A report as the calculator page saves it: `id` and `date` both come
      from the clock at save time (milliseconds). */
  datatype LocalReport = LocalReport(id: int, date: int, formData: FormData, results: StoredResults)
}

=== FILE: register_page.dfy ===
/** The registration page: the password-strength meter and the terms guard
    on submit. */
module RegisterPage {

  predicate IsLower(c: char) { 'a' <= c <= 'z' }
  predicate IsUpper(c: char) { 'A' <= c <= 'Z' }
  predicate IsDigit(c: char) { '0' <= c <= '9' }
  predicate IsAlnum(c: char) { IsLower(c) || IsUpper(c) || IsDigit(c) }

  /** `password.match(/[a-z]/)` and its three siblings: some character of
      the class occurs. */
  predicate HasLower(p: string) { exists i :: 0 <= i < |p| && IsLower(p[i]) }
  predicate HasUpper(p: string) { exists i :: 0 <= i < |p| && IsUpper(p[i]) }
  predicate HasDigit(p: string) { exists i :: 0 <= i < |p| && IsDigit(p[i]) }
  predicate HasSymbol(p: string) { exists i :: 0 <= i < |p| && !IsAlnum(p[i]) }

  /** One point per criterion met: length at least 8, both cases, a digit,
      a character that is neither letter nor digit. */
  function Strength(p: string): (n: nat)
    ensures n <= 4
  {
    var strength := 0;
    var strength := if |p| >= 8 then strength + 1 else strength;
    var strength := if HasLower(p) && HasUpper(p) then strength + 1 else strength;
    var strength := if HasDigit(p) then strength + 1 else strength;
    if HasSymbol(p) then strength + 1 else strength
  }

  const Levels: seq<string> := ["Debole", "Media", "Buona", "Ottima"]
  const Colors: seq<string> := ["#ef4444", "#f59e0b", "#eab308", "#10b981"]

  datatype Meter = Meter(level: string, color: string, percentage: int)

  /** `getPasswordStrength(password)`: strength k >= 1 reads as the k-th
      level and color; strength 0 falls through to "Molto debole" in red. The
      bar fills 25% per point. */
  function GetPasswordStrength(p: string): (m: Meter)
    ensures 0 <= m.percentage <= 100 && m.percentage == 25 * Strength(p)
    ensures Strength(p) == 0 ==> m.level == "Molto debole" && m.color == "#ef4444"
    ensures Strength(p) >= 1 ==> m.level == Levels[Strength(p) - 1] && m.color == Colors[Strength(p) - 1]
  {
    var strength := Strength(p);
    var level := if strength >= 1 then Levels[strength - 1] else "Molto debole";
    var color := if strength >= 1 then Colors[strength - 1] else "#ef4444";
    Meter(level, color, strength * 100 / 4)
  }

  /** Typing one more character never weakens the password: every criterion
      that held still holds. */
  lemma AppendNeverWeakens(p: string, c: char)
    ensures Strength(p + [c]) >= Strength(p)
  {
    var q := p + [c];
    assert forall i :: 0 <= i < |p| ==> q[i] == p[i];
    if HasLower(p) { var i :| 0 <= i < |p| && IsLower(p[i]); assert IsLower(q[i]); }
    if HasUpper(p) { var i :| 0 <= i < |p| && IsUpper(p[i]); assert IsUpper(q[i]); }
    if HasDigit(p) { var i :| 0 <= i < |p| && IsDigit(p[i]); assert IsDigit(q[i]); }
    if HasSymbol(p) { var i :| 0 <= i < |p| && !IsAlnum(p[i]); assert !IsAlnum(q[i]); }
  }

  /** Mixed case scores only with both cases: eight lower-case letters earn
      the length point alone, and one capital earns the second. */
  lemma MixedCaseNeedsBoth()
    ensures GetPasswordStrength("abcdefgh") == Meter("Debole", "#ef4444", 25)
    ensures GetPasswordStrength("Abcdefgh") == Meter("Media", "#f59e0b", 50)
    ensures GetPasswordStrength("Abcdef1!") == Meter("Ottima", "#10b981", 100)
  {
    LowerOnlyStrength();
    OneCapitalStrength();
    AllCriteriaStrength();
  }

  lemma LowerOnlyStrength()
    ensures Strength("abcdefgh") == 1
  {
    var p := "abcdefgh";
    assert IsLower(p[0]);
    assert !HasUpper(p) && !HasDigit(p) && !HasSymbol(p);
  }

  lemma OneCapitalStrength()
    ensures Strength("Abcdefgh") == 2
  {
    var q := "Abcdefgh";
    assert IsUpper(q[0]) && IsLower(q[1]);
    assert !HasDigit(q) && !HasSymbol(q);
  }

  lemma AllCriteriaStrength()
    ensures Strength("Abcdef1!") == 4
  {
    var r := "Abcdef1!";
    assert IsUpper(r[0]) && IsLower(r[1]) && IsDigit(r[6]) && !IsAlnum(r[7]);
  }

  /** The registration form's fields. */
  datatype RegisterForm = RegisterForm(name: string, email: string, password: string, acceptTerms: bool)

  /** What submitting does: an alert, or a call to `register` with the form. */
  datatype Submit = TermsAlert | Register(form: RegisterForm)

  /** `handleSubmit`: registration is attempted only with the terms
      accepted, and then with the form exactly as filled in. */
  function HandleSubmit(form: RegisterForm): (r: Submit)
    ensures r.Register? <==> form.acceptTerms
    ensures r.Register? ==> r.form == form
  {
    if !form.acceptTerms then TermsAlert else Register(form)
  }
}

=== FILE: report_model.dfy ===
/** The backend `Report` model: its schema defaults and its instance method
    `calculateEfficiency`, the third copy of the classifier. */
module ReportModel {
  import opened Common
  import opened Scoring

  datatype HeatingType = Gas | Elettrico | PompaCalore | Altro
  datatype BuildingType = Residenziale | Ufficio | Commerciale | Industriale

  /** A row of the `Report` schema. Columns without a default are optional. */
  datatype ReportRecord = ReportRecord(
    id: nat, userId: nat, title: string,
    consumption: real, bill: real, area: real,
    heatingType: HeatingType, buildingType: BuildingType,
    occupants: Option<int>, usageTime: Option<string>,
    efficiencyLevel: Option<Tier>, efficiencyScore: Option<int>, efficiencyColor: Option<string>,
    efficiencyFactor: Option<real>,
    monthlySavings: Option<real>, annualSavings: Option<real>, savingsPercentage: Option<int>,
    investment: Option<real>, roi: Option<real>, co2Savings: Option<real>,
    recommendations: seq<string>, notes: Option<string>, pdfUrl: Option<string>, isPublic: bool)

  /** The attributes a caller may pass when building a row; the rest come from
      the schema. */
  datatype NewReport = NewReport(
    userId: nat, title: Option<string>, consumption: real, bill: real, area: real,
    heatingType: Option<HeatingType>, buildingType: Option<BuildingType>,
    recommendations: Option<seq<string>>, isPublic: Option<bool>)

  /** `Report.build(attrs)` with the row id the database assigns: the schema
      defaults fill every attribute left out, and a missing title is the
      date-derived default `defaultTitle`. */
  function Build(id: nat, attrs: NewReport, defaultTitle: string): (r: ReportRecord)
    ensures attrs.heatingType.None? ==> r.heatingType == Gas
    ensures attrs.buildingType.None? ==> r.buildingType == Residenziale
    ensures attrs.recommendations.None? ==> r.recommendations == []
    ensures attrs.isPublic.None? ==> !r.isPublic
    ensures attrs.title.None? ==> r.title == defaultTitle
    ensures attrs.heatingType.Some? ==> r.heatingType == attrs.heatingType.value
    ensures attrs.buildingType.Some? ==> r.buildingType == attrs.buildingType.value
    ensures attrs.isPublic.Some? ==> r.isPublic == attrs.isPublic.value
    ensures attrs.title.Some? ==> r.title == attrs.title.value
    ensures attrs.recommendations.Some? ==> r.recommendations == attrs.recommendations.value
    ensures r.id == id && r.userId == attrs.userId
    ensures r.consumption == attrs.consumption && r.bill == attrs.bill && r.area == attrs.area
    ensures r.efficiencyLevel.None? && r.annualSavings.None? && r.occupants.None?
  {
    ReportRecord(
      id, attrs.userId, attrs.title.GetOr(defaultTitle),
      attrs.consumption, attrs.bill, attrs.area,
      attrs.heatingType.GetOr(Gas), attrs.buildingType.GetOr(Residenziale),
      None, None, None, None, None, None, None, None, None, None, None, None,
      attrs.recommendations.GetOr([]), None, None, attrs.isPublic.GetOr(false))
  }

  /** The attributes a stored row was built from, every optional one
      supplied. */
  function AttrsOf(r: ReportRecord): NewReport {
    NewReport(r.userId, Some(r.title), r.consumption, r.bill, r.area,
              Some(r.heatingType), Some(r.buildingType), Some(r.recommendations), Some(r.isPublic))
  }

  /** Building again from a built row's attributes gives the same row, and
      reading the attributes back returns exactly those supplied when all of
      them were. */
  lemma RebuildRoundTrip(id: nat, attrs: NewReport, defaultTitle: string, otherTitle: string)
    ensures Build(id, AttrsOf(Build(id, attrs, defaultTitle)), otherTitle) == Build(id, attrs, defaultTitle)
    ensures attrs.title.Some? && attrs.heatingType.Some? && attrs.buildingType.Some?
            && attrs.recommendations.Some? && attrs.isPublic.Some?
            ==> AttrsOf(Build(id, attrs, defaultTitle)) == attrs
  {
  }

  /** `calculateEfficiency()`: the model's copy of the classifier, an
      if/else-if chain ending in `Critico`. */
  function CalculateEfficiency(r: ReportRecord): (e: Efficiency)
    ensures e == Classify(Divide(r.consumption, r.area))
  {
    var consumptionPerArea := Divide(r.consumption, r.area);
    ClassifyCascade(consumptionPerArea);
    if Below(consumptionPerArea, 5.0) then
      Efficiency(Ottimo, 90, "#059669", 0.3)
    else if Below(consumptionPerArea, 10.0) then
      Efficiency(Buono, 75, "#2563eb", 0.5)
    else if Below(consumptionPerArea, 15.0) then
      Efficiency(Medio, 60, "#eab308", 0.7)
    else if Below(consumptionPerArea, 20.0) then
      Efficiency(Scarso, 40, "#f97316", 0.9)
    else
      Efficiency(Critico, 25, "#dc2626", 1.0)
  }
}

=== FILE: reports_controller.dfy ===
/** The backend report controller: create, list, read, update, delete and
    share a user's reports, keeping the owner's running stats, and serve a
    shared report publicly.

    The reports table is a sequence of rows in insertion order; ids come from
    an auto-increment counter, so the order is also ascending id, and it is
    ascending creation time while the clock does not go back
    (`CreatedInOrder`). The caller's id is what the authentication layer put on the
    request. */
module ReportsController {
  import opened Common
  import opened Scoring
  import opened Users

  /** The one field of the `data` JSON column the controller reads. */
  datatype DataJson = DataJson(consumption: Raw)

  /** The three paths of the `results` JSON column the controller reads:
      `savingsPotential.annualSavings`, `savingsPotential.monthlySavings` and
      `environmental.co2Savings`. */
  datatype ResultsJson = ResultsJson(annualSavings: Raw, monthlySavings: Raw, co2Savings: Raw)

  const EmptyData := DataJson(Absent)
  const EmptyResults := ResultsJson(Absent, Absent, Absent)

  /** A stored report as the controller reads and writes it. */
  datatype Row = Row(
    id: nat, userId: nat, title: string, data: DataJson, results: ResultsJson,
    recommendations: seq<string>, annualSavings: real, monthlySavings: real, co2Savings: real,
    isPublic: bool, publicId: Option<string>, createdAt: int)

  datatype Db = Db(rows: seq<Row>, users: UserTable, nextId: nat)

  /** Row ids increase along the table and stay below the next id. */
  ghost predicate Valid(db: Db) {
    && (forall i, j :: 0 <= i < j < |db.rows| ==> db.rows[i].id < db.rows[j].id)
    && (forall i :: 0 <= i < |db.rows| ==> db.rows[i].id < db.nextId)
  }

  /** The HTTP outcomes the controller distinguishes. */
  datatype Status = NotFound | ServerError

  // ---------------------------------------------------------------- create

  /** The parts of a create request's body the controller reads. */
  datatype CreateBody = CreateBody(
    title: Option<string>, data: Option<DataJson>, results: Option<ResultsJson>,
    recommendations: Option<seq<string>>, annualSavings: Raw, monthlySavings: Raw, co2Savings: Raw)

  function ResultsOf(body: CreateBody): ResultsJson {
    body.results.GetOr(EmptyResults)
  }

  /** `parseFloat(body.annualSavings || results...annualSavings || 0)`. */
  function ExtractedAnnual(body: CreateBody): Option<real> {
    ParseFloat(Or(body.annualSavings, Or(ResultsOf(body).annualSavings, Number(0.0))))
  }

  /** `parseFloat(body.monthlySavings || results...monthlySavings || 0)`. */
  function ExtractedMonthly(body: CreateBody): Option<real> {
    ParseFloat(Or(body.monthlySavings, Or(ResultsOf(body).monthlySavings, Number(0.0))))
  }

  /** `parseFloat(body.data?.consumption || 0)`. */
  function ExtractedConsumption(body: CreateBody): Option<real> {
    ParseFloat(Or(body.data.GetOr(EmptyData).consumption, Number(0.0)))
  }

  /** The CO2 the request states, or else the backend formula applied to the
      consumption; NaN when neither yields a number. */
  function ExtractedCo2(body: CreateBody): (co2: Option<real>)
    ensures !Truthy(body.co2Savings) && !Truthy(ResultsOf(body).co2Savings) ==>
      co2 == match ExtractedConsumption(body)
             case Some(c) => Some(BackendCo2(c))
             case None => None
  {
    var fallback := match ExtractedConsumption(body)
      case Some(c) => Number(BackendCo2(c))
      case None => NotANumber;
    ParseFloat(Or(body.co2Savings, Or(ResultsOf(body).co2Savings, fallback)))
  }

  /** `title || "Report del <date>"`. */
  function TitleOf(title: Option<string>, defaultTitle: string): string {
    if title.Some? && title.value != "" then title.value else defaultTitle
  }

  /** `createReport` for caller `uid` at time `now`: appends one row owned by
      the caller, with each savings column taken from the request and 0 in
      place of NaN, and credits the caller's stats with the stored values. */
  function CreateReport(db: Db, uid: nat, body: CreateBody, now: int, defaultTitle: string): (r: (Db, Row))
    ensures r.0.rows == db.rows + [r.1]
    ensures r.0.nextId == db.nextId + 1
    ensures r.1.id == db.nextId && r.1.userId == uid && r.1.createdAt == now
    ensures !r.1.isPublic && r.1.publicId.None?
    ensures r.1.annualSavings == ZeroIfNaN(ExtractedAnnual(body))
    ensures r.1.monthlySavings == ZeroIfNaN(ExtractedMonthly(body))
    ensures r.1.co2Savings == ZeroIfNaN(ExtractedCo2(body))
    ensures uid in db.users ==>
      r.0.users == db.users[uid := UpdateStats(db.users[uid], Some(r.1.annualSavings), Some(r.1.co2Savings))]
    ensures uid !in db.users ==> r.0.users == db.users
  {
    var row := Row(db.nextId, uid, TitleOf(body.title, defaultTitle), body.data.GetOr(EmptyData),
                   body.results.GetOr(EmptyResults), body.recommendations.GetOr([]),
                   ZeroIfNaN(ExtractedAnnual(body)), ZeroIfNaN(ExtractedMonthly(body)),
                   ZeroIfNaN(ExtractedCo2(body)), false, None, now);
    var users := if uid in db.users
      then db.users[uid := UpdateStats(db.users[uid], Some(row.annualSavings), Some(row.co2Savings))]
      else db.users;
    (Db(db.rows + [row], users, db.nextId + 1), row)
  }

  /** The stats update `createReport` hands the database as the source writes
      it: the unsanitised parsed values are added, so a NaN reaches the
      update (`None`) even though the row itself stores 0. */
  function CreateStatsAsWritten(u: User, body: CreateBody): (v: Option<User>)
    ensures v.Some? <==> ExtractedAnnual(body).Some? && ExtractedCo2(body).Some?
  {
    var annual := ExtractedAnnual(body);
    var co2 := ExtractedCo2(body);
    if annual.None? || co2.None? then None else Some(UpdateStats(u, annual, co2))
  }

  /** A request whose `annualSavings` is text that is not a number: the row
      stores 0 but the stats update the source computes is not a number. */
  lemma NaNSavingsReachStats(db: Db, uid: nat, now: int, defaultTitle: string)
    requires uid in db.users
    ensures var body := CreateBody(None, None, None, None, Text("n/d", None), Absent, Absent);
      && CreateReport(db, uid, body, now, defaultTitle).1.annualSavings == 0.0
      && CreateStatsAsWritten(db.users[uid], body).None?
      && CreateReport(db, uid, body, now, defaultTitle).0.users[uid].totalSavings == db.users[uid].totalSavings
  {
  }

  // ---------------------------------------------------------------- lookup

  /** The index of the row with this id owned by this user, searching from
      `start`. */
  function FindFrom(rows: seq<Row>, id: nat, uid: nat, start: nat): (i: Option<nat>)
    requires start <= |rows|
    ensures i.Some? ==> start <= i.value < |rows| && rows[i.value].id == id && rows[i.value].userId == uid
    ensures i.Some? ==> forall k :: start <= k < i.value ==> !(rows[k].id == id && rows[k].userId == uid)
    ensures i.None? ==> forall k :: start <= k < |rows| ==> !(rows[k].id == id && rows[k].userId == uid)
    decreases |rows| - start
  {
    if start == |rows| then None
    else if rows[start].id == id && rows[start].userId == uid then Some(start)
    else FindFrom(rows, id, uid, start + 1)
  }

  /** `Report.findOne({ where: { id, userId } })`: a row is found only when
      both its id and its owner match. */
  function FindOwned(rows: seq<Row>, id: nat, uid: nat): (i: Option<nat>)
    ensures i.Some? ==> i.value < |rows| && rows[i.value].id == id && rows[i.value].userId == uid
    ensures i.Some? ==> forall k :: 0 <= k < i.value ==> !(rows[k].id == id && rows[k].userId == uid)
    ensures i.None? <==> forall k :: 0 <= k < |rows| ==> !(rows[k].id == id && rows[k].userId == uid)
  {
    FindFrom(rows, id, uid, 0)
  }

  /** `getReport`: the caller's own row with that id, or 404; a row owned by
      someone else is reported as not found. */
  function GetReport(db: Db, uid: nat, id: nat): (r: Result<Row, Status>)
    ensures r.Ok? ==> r.value in db.rows && r.value.id == id && r.value.userId == uid
    ensures r.Err? ==> r.error == NotFound
    ensures r.Err? <==> forall k :: 0 <= k < |db.rows| ==> !(db.rows[k].id == id && db.rows[k].userId == uid)
  {
    match FindOwned(db.rows, id, uid)
    case Some(i) => Ok(db.rows[i])
    case None => Err(NotFound)
  }

  // ---------------------------------------------------------------- update

  /** The parts of an update request's body the controller could see: the
      five whitelisted fields, and three others it ignores. */
  datatype UpdateBody = UpdateBody(
    title: Option<string>, data: Option<DataJson>, results: Option<ResultsJson>,
    recommendations: Option<seq<string>>, isPublic: Option<bool>,
    userId: Option<nat>, publicId: Option<string>, annualSavings: Raw)

  /** `parseFloat(new || old || 0)` for one savings column: the new value when
      the request supplies a truthy one, else the stored value. */
  function Refreshed(supplied: Raw, stored: real): Option<real> {
    if Truthy(supplied) then ParseFloat(supplied) else Some(stored)
  }

  /** The row after an update, or `None` when the new savings would be NaN
      (a value the DECIMAL columns cannot take, so the write fails). */
  function ApplyUpdate(row: Row, body: UpdateBody): Option<Row> {
    var row1 := row.(
      title := body.title.GetOr(row.title),
      data := body.data.GetOr(row.data),
      results := body.results.GetOr(row.results),
      recommendations := body.recommendations.GetOr(row.recommendations),
      isPublic := body.isPublic.GetOr(row.isPublic));
    match body.results
    case None => Some(row1)
    case Some(res) =>
      var a := Refreshed(res.annualSavings, row.annualSavings);
      var m := Refreshed(res.monthlySavings, row.monthlySavings);
      var c := Refreshed(res.co2Savings, row.co2Savings);
      if a.None? || m.None? || c.None? then None
      else Some(row1.(annualSavings := a.value, monthlySavings := m.value, co2Savings := c.value))
  }

  /** Two rows differ at most in the five whitelisted fields and the three
      savings columns. */
  predicate OnlyWhitelistChanged(before: Row, after: Row) {
    after.(title := before.title, data := before.data, results := before.results,
         recommendations := before.recommendations, isPublic := before.isPublic,
         annualSavings := before.annualSavings, monthlySavings := before.monthlySavings,
         co2Savings := before.co2Savings) == before
  }

  /** A supplied savings value that is truthy but parses to NaN. */
  predicate NaNIfSupplied(v: Raw) {
    Truthy(v) && ParseFloat(v).None?
  }

  /** Some savings path of the new `results` would write NaN. */
  predicate SuppliesNaN(res: ResultsJson) {
    NaNIfSupplied(res.annualSavings) || NaNIfSupplied(res.monthlySavings) || NaNIfSupplied(res.co2Savings)
  }

  /** A savings column after the update: the parsed supplied value when it is
      truthy, otherwise the stored one. */
  predicate Settles(supplied: Raw, stored: real, after: real) {
    && (Truthy(supplied) ==> ParseFloat(supplied) == Some(after))
    && (!Truthy(supplied) ==> after == stored)
  }

  /** `updateReport`: on the caller's own row, sets exactly the whitelisted
      fields the request supplies; the savings columns change only when
      `results` is supplied, each taking the parsed new value when it is
      truthy and falling back to its stored value otherwise. A new value that
      parses to NaN fails the write with 500; a missing row is 404; neither
      changes the table. */
  function UpdateReport(db: Db, uid: nat, id: nat, body: UpdateBody): (r: (Db, Option<Status>))
    ensures r.1.Some? ==> r.0 == db
    ensures r.1 == Some(NotFound) <==> FindOwned(db.rows, id, uid).None?
    ensures r.1.None? ==>
      var i := FindOwned(db.rows, id, uid).value;
      && |r.0.rows| == |db.rows|
      && r.0 == db.(rows := db.rows[i := r.0.rows[i]])
      && OnlyWhitelistChanged(db.rows[i], r.0.rows[i])
      && (body.title.Some? ==> r.0.rows[i].title == body.title.value)
      && (body.isPublic.Some? ==> r.0.rows[i].isPublic == body.isPublic.value)
      && (body.title.None? ==> r.0.rows[i].title == db.rows[i].title)
      && (body.isPublic.None? ==> r.0.rows[i].isPublic == db.rows[i].isPublic)
      && (body.results.None? ==>
            && r.0.rows[i].annualSavings == db.rows[i].annualSavings
            && r.0.rows[i].monthlySavings == db.rows[i].monthlySavings
            && r.0.rows[i].co2Savings == db.rows[i].co2Savings)
      && (body.data.Some? ==> r.0.rows[i].data == body.data.value)
      && (body.data.None? ==> r.0.rows[i].data == db.rows[i].data)
      && (body.results.Some? ==> r.0.rows[i].results == body.results.value)
      && (body.results.None? ==> r.0.rows[i].results == db.rows[i].results)
      && (body.recommendations.Some? ==> r.0.rows[i].recommendations == body.recommendations.value)
      && (body.recommendations.None? ==> r.0.rows[i].recommendations == db.rows[i].recommendations)
      && (body.results.Some? ==>
            var res := body.results.value;
            && Settles(res.annualSavings, db.rows[i].annualSavings, r.0.rows[i].annualSavings)
            && Settles(res.monthlySavings, db.rows[i].monthlySavings, r.0.rows[i].monthlySavings)
            && Settles(res.co2Savings, db.rows[i].co2Savings, r.0.rows[i].co2Savings))
    ensures r.1 == Some(ServerError) <==>
      FindOwned(db.rows, id, uid).Some? && body.results.Some? && SuppliesNaN(body.results.value)
  {
    match FindOwned(db.rows, id, uid)
    case None => (db, Some(NotFound))
    case Some(i) =>
      match ApplyUpdate(db.rows[i], body)
      case None => (db, Some(ServerError))
      case Some(row') => (db.(rows := db.rows[i := row']), None)
  }

  // ---------------------------------------------------------------- delete

  /** The stats decrement `deleteReport` applies: one report fewer and the
      report's savings and CO2 taken off, each floored at 0. */
  function DebitStats(u: User, row: Row): (v: User)
    ensures v.totalReports == MaxZero(u.totalReports - 1)
    ensures v.totalSavings == MaxZeroReal(u.totalSavings - row.annualSavings)
    ensures v.co2Saved == MaxZeroReal(u.co2Saved - row.co2Savings)
    ensures SameExceptStats(u, v)
  {
    u.(totalReports := MaxZero(u.totalReports - 1),
       totalSavings := MaxZeroReal(u.totalSavings - row.annualSavings),
       co2Saved := MaxZeroReal(u.co2Saved - row.co2Savings))
  }

  /** `deleteReport`: removes the caller's own row and debits the caller's
      stats by that row; otherwise 404 and nothing changes. */
  function DeleteReport(db: Db, uid: nat, id: nat): (r: (Db, Option<Status>))
    ensures r.1.Some? <==> FindOwned(db.rows, id, uid).None?
    ensures r.1.Some? ==> r.0 == db && r.1.value == NotFound
    ensures r.1.None? ==>
      var i := FindOwned(db.rows, id, uid).value;
      && r.0.rows == Without(db.rows, i)
      && r.0.nextId == db.nextId
      && (uid in db.users ==> r.0.users == db.users[uid := DebitStats(db.users[uid], db.rows[i])])
      && (uid !in db.users ==> r.0.users == db.users)
  {
    match FindOwned(db.rows, id, uid)
    case None => (db, Some(NotFound))
    case Some(i) =>
      var users := if uid in db.users then db.users[uid := DebitStats(db.users[uid], db.rows[i])] else db.users;
      (Db(Without(db.rows, i), users, db.nextId), None)
  }

  /** The table without its entry at `i`; later entries shift down by one. */
  function Without(rows: seq<Row>, i: nat): (r: seq<Row>)
    requires i < |rows|
    ensures |r| == |rows| - 1
    ensures forall k :: 0 <= k < i ==> r[k] == rows[k]
    ensures forall k :: i <= k < |r| ==> r[k] == rows[k + 1]
  {
    rows[..i] + rows[i + 1..]
  }

  /** In a valid table the deleted id is gone afterwards, every other row is
      still there, and the table stays valid. */
  lemma DeleteRemovesExactlyOne(db: Db, uid: nat, id: nat)
    requires Valid(db)
    requires FindOwned(db.rows, id, uid).Some?
    ensures var db' := DeleteReport(db, uid, id).0;
      && |db'.rows| == |db.rows| - 1
      && (forall row :: row in db'.rows ==> row.id != id)
      && (forall row :: row in db.rows && row.id != id ==> row in db'.rows)
      && Valid(db')
  {
    var i := FindOwned(db.rows, id, uid).value;
    WithoutDropsOnly(db.rows, i, db.nextId);
  }

  /** Dropping entry `i` from a table whose ids increase and stay below
      `next` removes exactly that entry's id and keeps both properties. */
  lemma WithoutDropsOnly(rows: seq<Row>, i: nat, next: nat)
    requires i < |rows|
    requires forall a, b :: 0 <= a < b < |rows| ==> rows[a].id < rows[b].id
    requires forall a :: 0 <= a < |rows| ==> rows[a].id < next
    ensures var rows' := Without(rows, i);
      && (forall row :: row in rows' ==> row.id != rows[i].id)
      && (forall row :: row in rows && row.id != rows[i].id ==> row in rows')
      && (forall a, b :: 0 <= a < b < |rows'| ==> rows'[a].id < rows'[b].id)
      && (forall a :: 0 <= a < |rows'| ==> rows'[a].id < next)
  {
    var rows' := Without(rows, i);
    forall row | row in rows' ensures row.id != rows[i].id {
      var k :| 0 <= k < |rows'| && rows'[k] == row;
      assert row == rows[if k < i then k else k + 1];
    }
    forall row | row in rows && row.id != rows[i].id ensures row in rows' {
      var k :| 0 <= k < |rows| && rows[k] == row;
      assert rows'[if k < i then k else k - 1] == row;
    }
    forall a, b | 0 <= a < b < |rows'| ensures rows'[a].id < rows'[b].id {
      assert rows'[a] == rows[if a < i then a else a + 1];
      assert rows'[b] == rows[if b < i then b else b + 1];
    }
    forall a | 0 <= a < |rows'| ensures rows'[a].id < next {
      assert rows'[a] == rows[if a < i then a else a + 1];
    }
  }

  // ---------------------------------------------------------------- share

  /** What the share link points at: the public id, or the row id when the
      public id is empty. */
  datatype ShareTarget = ByPublicId(publicId: string) | ById(id: nat)

  /** The row has a truthy public id: present and not empty. */
  predicate HasPublicId(row: Row) {
    row.publicId.Some? && row.publicId.value != ""
  }

  function TargetOf(row: Row): ShareTarget {
    if HasPublicId(row) then ByPublicId(row.publicId.value) else ById(row.id)
  }

  /** `shareReport`, with `freshId` the id the source would generate from the
      clock and a random number: makes the caller's row public and assigns a
      public id only if it has none, an empty one counting as none. */
  function ShareReport(db: Db, uid: nat, id: nat, freshId: string): (r: (Db, Result<ShareTarget, Status>))
    ensures r.1.Err? <==> FindOwned(db.rows, id, uid).None?
    ensures r.1.Err? ==> r.0 == db && r.1.error == NotFound
    ensures r.1.Ok? ==>
      var i := FindOwned(db.rows, id, uid).value;
      && |r.0.rows| == |db.rows|
      && r.0 == db.(rows := db.rows[i := r.0.rows[i]])
      && r.0.rows[i].isPublic
      && (HasPublicId(db.rows[i]) ==> r.0.rows[i] == db.rows[i].(isPublic := true))
      && (!HasPublicId(db.rows[i]) ==> r.0.rows[i] == db.rows[i].(isPublic := true, publicId := Some(freshId)))
      && r.1.value == TargetOf(r.0.rows[i])
      && (!HasPublicId(db.rows[i]) && freshId != "" ==> r.1.value == ByPublicId(freshId))
  {
    match FindOwned(db.rows, id, uid)
    case None => (db, Err(NotFound))
    case Some(i) =>
      var row := db.rows[i];
      var row' := if !HasPublicId(row) then row.(isPublic := true, publicId := Some(freshId))
                  else row.(isPublic := true);
      (db.(rows := db.rows[i := row']), Ok(TargetOf(row')))
  }

  /** Sharing is idempotent: a second call, whatever id it would generate,
      returns the same link and changes nothing. A generated id is never
      empty: it starts with the clock's digits and a dash. */
  lemma ShareIdempotent(db: Db, uid: nat, id: nat, fresh1: string, fresh2: string)
    requires FindOwned(db.rows, id, uid).Some?
    requires fresh1 != ""
    ensures var (db1, t1) := ShareReport(db, uid, id, fresh1);
      var (db2, t2) := ShareReport(db1, uid, id, fresh2);
      db2 == db1 && t2 == t1
  {
    var i := FindOwned(db.rows, id, uid).value;
    var db1 := ShareReport(db, uid, id, fresh1).0;
    assert db1.rows[i].id == id && db1.rows[i].userId == uid;
    assert FindOwned(db1.rows, id, uid).Some?;
    assert FindOwned(db1.rows, id, uid) == Some(i);
    assert HasPublicId(db1.rows[i]);
    assert db1.rows[i := db1.rows[i].(isPublic := true)] == db1.rows;
  }

  // ---------------------------------------------------------------- list

  /** The rows owned by `uid`, in table order. */
  function Owned(rows: seq<Row>, uid: nat): (owned: seq<Row>)
    ensures |owned| <= |rows|
    ensures forall row :: row in owned <==> row in rows && row.userId == uid
  {
    if |rows| == 0 then []
    else (if rows[0].userId == uid then [rows[0]] else []) + Owned(rows[1..], uid)
  }

  /** Newest first: the table order reversed. */
  function Reverse(rows: seq<Row>): (r: seq<Row>)
    ensures |r| == |rows|
    ensures forall k :: 0 <= k < |rows| ==> r[k] == rows[|rows| - 1 - k]
  {
    if |rows| == 0 then [] else Reverse(rows[1..]) + [rows[0]]
  }

  /** `Math.ceil(n / d)` for a positive divisor. */
  function CeilDiv(n: nat, d: nat): (q: nat)
    requires d > 0
    ensures n == 0 ==> q == 0
    ensures n > 0 ==> (q - 1) * d < n <= q * d
  {
    (n + d - 1) / d
  }

  /** One page of a listing. `pages` is absent when the limit is 0 and the
      source's `Math.ceil(count / 0)` is not a number of pages. */
  datatype Listing = Listing(reports: seq<Row>, total: nat, page: int, pages: Option<nat>)

  /** The caller's rows, newest first. */
  function Timeline(db: Db, uid: nat): seq<Row> {
    Reverse(Owned(db.rows, uid))
  }

  /** `OFFSET offset LIMIT limit` over a list. */
  function Window(rows: seq<Row>, offset: nat, limit: nat): (w: seq<Row>)
    ensures |w| <= limit
    ensures forall row :: row in w ==> row in rows
    ensures offset >= |rows| ==> w == []
    ensures forall k :: 0 <= k < |w| ==> offset + k < |rows| && w[k] == rows[offset + k]
    ensures offset + limit <= |rows| ==> |w| == limit
    ensures offset < |rows| < offset + limit ==> |w| == |rows| - offset
  {
    if offset >= |rows| then []
    else if offset + limit < |rows| then rows[offset..offset + limit]
    else rows[offset..]
  }

  /** `getAllReports` with the default ordering (newest first) and the
      `page`/`limit` query values (defaults 1 and 10): the window of the
      caller's timeline starting at offset (page - 1) * limit, the caller's
      total and the page count. A negative offset or limit is rejected by the
      database. */
  function GetAllReports(db: Db, uid: nat, page: Option<int>, limit: Option<int>): (r: Result<Listing, Status>)
    ensures var p := page.GetOr(1); var l := limit.GetOr(10); var offset := (p - 1) * l;
      && (r.Err? <==> offset < 0 || l < 0)
      && (r.Ok? ==>
        && r.value.total == |Owned(db.rows, uid)|
        && r.value.page == p
        && r.value.reports == Window(Timeline(db, uid), offset, l)
        && (l > 0 ==> r.value.pages == Some(CeilDiv(r.value.total, l)))
        && (l == 0 ==> r.value.pages.None?))
  {
    var p := page.GetOr(1);
    var l := limit.GetOr(10);
    var offset := (p - 1) * l;
    if offset < 0 || l < 0 then Err(ServerError)
    else
      var timeline := Timeline(db, uid);
      Ok(Listing(Window(timeline, offset, l), |timeline|, p, if l == 0 then None else Some(CeilDiv(|timeline|, l))))
  }

  /** Creation times never decrease along the table: rows were inserted by
      a clock that does not go back. */
  predicate CreatedInOrder(rows: seq<Row>) {
    forall i, j :: 0 <= i < j < |rows| ==> rows[i].createdAt <= rows[j].createdAt
  }

  /** A create at a time no earlier than any stored row keeps the creation
      times in order. */
  lemma CreateKeepsCreatedOrder(db: Db, uid: nat, body: CreateBody, now: int, defaultTitle: string)
    requires CreatedInOrder(db.rows)
    requires forall row :: row in db.rows ==> row.createdAt <= now
    ensures CreatedInOrder(CreateReport(db, uid, body, now, defaultTitle).0.rows)
  {
    var rows' := CreateReport(db, uid, body, now, defaultTitle).0.rows;
    forall i, j | 0 <= i < j < |rows'| ensures rows'[i].createdAt <= rows'[j].createdAt {
      assert rows'[i] in db.rows;
      if j < |db.rows| { assert rows'[j] == db.rows[j]; }
    }
  }

  /** Selecting the caller's rows keeps them in table order, so their
      creation times stay in order. */
  lemma {:induction false} OwnedInOrder(rows: seq<Row>, uid: nat)
    requires CreatedInOrder(rows)
    ensures CreatedInOrder(Owned(rows, uid))
  {
    if |rows| > 0 {
      OwnedInOrder(rows[1..], uid);
      var rest := Owned(rows[1..], uid);
      assert forall row :: row in rest ==> row in rows[1..];
      assert forall row :: row in rows[1..] ==> rows[0].createdAt <= row.createdAt;
    }
  }

  /** With creation times in table order, the listing order (newest id
      first) is `createdAt DESC`. */
  lemma TimelineNewestFirst(db: Db, uid: nat)
    requires CreatedInOrder(db.rows)
    ensures var t := Timeline(db, uid);
      forall i, j :: 0 <= i < j < |t| ==> t[i].createdAt >= t[j].createdAt
  {
    OwnedInOrder(db.rows, uid);
  }

  /** Every listed row is one of the caller's rows. */
  lemma ListedRowsAreOwn(db: Db, uid: nat, page: Option<int>, limit: Option<int>)
    requires GetAllReports(db, uid, page, limit).Ok?
    ensures forall row :: row in GetAllReports(db, uid, page, limit).value.reports ==> row in db.rows && row.userId == uid
  {
    var timeline := Timeline(db, uid);
    assert forall row :: row in timeline ==> row in Owned(db.rows, uid);
  }

  /** Entry `k` of a list sits on page k / limit + 1, at position
      k % limit, and that page is no later than the last one. */
  lemma PageArithmetic(k: nat, limit: nat, count: nat)
    requires limit > 0 && k < count
    ensures var offset := (k / limit + 1 - 1) * limit;
      && 0 <= offset && offset + k % limit == k
      && k % limit < limit
      && k / limit + 1 <= CeilDiv(count, limit)
  {
    var q, m := k / limit, k % limit;
    assert q * limit + m == k;
  }

  /** Paging covers the caller's timeline exactly once: the k-th newest row
      is entry k % limit of page k / limit + 1, and that page is within the
      page count. */
  lemma PagesPartitionTimeline(db: Db, uid: nat, limit: nat, k: nat)
    requires limit > 0
    requires k < |Owned(db.rows, uid)|
    ensures var listing := GetAllReports(db, uid, Some(k / limit + 1), Some(limit));
      && listing.Ok?
      && k % limit < |listing.value.reports|
      && listing.value.reports[k % limit] == Timeline(db, uid)[k]
      && k / limit + 1 <= listing.value.pages.value
  {
    var timeline := Timeline(db, uid);
    PageArithmetic(k, limit, |timeline|);
    var offset := (k / limit + 1 - 1) * limit;
    var w := Window(timeline, offset, limit);
    assert k % limit < |w|;
  }

  // ---------------------------------------------------------------- public

  /** The first row satisfying `f`. */
  function FirstWhere(rows: seq<Row>, f: Row -> bool): (r: Option<Row>)
    ensures r.Some? ==> r.value in rows && f(r.value)
    ensures r.None? <==> forall row :: row in rows ==> !f(row)
  {
    if |rows| == 0 then None
    else if f(rows[0]) then Some(rows[0])
    else FirstWhere(rows[1..], f)
  }

  /** `getPublicReport` as the source writes it: the row whose public id is
      the reference, or whose id is the reference and which is public. The
      public-id branch does not look at `isPublic`. `refId` is the number the
      database reads the reference as, if any. */
  function GetPublicReport(db: Db, ref: string, refId: Option<nat>): (r: Option<Row>)
    ensures r.Some? ==> r.value in db.rows
    ensures r.Some? ==> r.value.publicId == Some(ref) || (refId == Some(r.value.id) && r.value.isPublic)
    ensures r.None? <==> forall row :: row in db.rows ==> row.publicId != Some(ref) && (refId == Some(row.id) ==> !row.isPublic)
  {
    FirstWhere(db.rows, (row: Row) => row.publicId == Some(ref) || (refId == Some(row.id) && row.isPublic))
  }

  /** The public lookup with the visibility check on both branches: a row is
      served only while it is public. */
  function GetPublicReportChecked(db: Db, ref: string, refId: Option<nat>): (r: Option<Row>)
    ensures r.Some? ==> r.value in db.rows && r.value.isPublic
    ensures r.Some? ==> r.value.publicId == Some(ref) || refId == Some(r.value.id)
    ensures r.None? <==> forall row :: row in db.rows && row.isPublic ==> row.publicId != Some(ref) && refId != Some(row.id)
  {
    FirstWhere(db.rows, (row: Row) => row.isPublic && (row.publicId == Some(ref) || refId == Some(row.id)))
  }

  /** A report shared and then made private again with `isPublic: false` is
      still served by its public id; the checked lookup refuses it. */
  lemma UnsharedReportStillServed()
    ensures var db0 := Db([], map[], 1);
      var body := CreateBody(None, None, None, None, Number(100.0), Absent, Absent);
      var db1 := CreateReport(db0, 7, body, 0, "t").0;
      var db2 := ShareReport(db1, 7, 1, "abc").0;
      var db3 := UpdateReport(db2, 7, 1, UpdateBody(None, None, None, None, Some(false), None, None, Absent)).0;
      && GetPublicReport(db3, "abc", None).Some?
      && !GetPublicReport(db3, "abc", None).value.isPublic
      && GetPublicReportChecked(db3, "abc", None).None?
  {
    var db0 := Db([], map[], 1);
    var body := CreateBody(None, None, None, None, Number(100.0), Absent, Absent);
    var db1 := CreateReport(db0, 7, body, 0, "t").0;
    assert |db1.rows| == 1 && db1.rows[0].id == 1 && db1.rows[0].userId == 7;
    assert FindOwned(db1.rows, 1, 7) == Some(0);
    var db2 := ShareReport(db1, 7, 1, "abc").0;
    assert |db2.rows| == 1 && db2.rows[0].publicId == Some("abc") && db2.rows[0].id == 1 && db2.rows[0].userId == 7;
    assert FindOwned(db2.rows, 1, 7) == Some(0);
    var db3 := UpdateReport(db2, 7, 1, UpdateBody(None, None, None, None, Some(false), None, None, Absent)).0;
    assert |db3.rows| == 1 && db3.rows[0].publicId == Some("abc") && !db3.rows[0].isPublic;
    assert db3.rows[0] in db3.rows;
    assert forall row :: row in db3.rows ==> row == db3.rows[0];
  }

  // ---------------------------------------------------------------- stats

  function SumAnnual(rows: seq<Row>): real {
    if |rows| == 0 then 0.0 else rows[0].annualSavings + SumAnnual(rows[1..])
  }

  function SumCo2(rows: seq<Row>): real {
    if |rows| == 0 then 0.0 else rows[0].co2Savings + SumCo2(rows[1..])
  }

  /** The owner's running stats equal the count and sums over the owner's
      rows. */
  ghost predicate StatsMatch(db: Db, uid: nat) {
    uid in db.users ==>
      && db.users[uid].totalReports == |Owned(db.rows, uid)|
      && db.users[uid].totalSavings == SumAnnual(Owned(db.rows, uid))
      && db.users[uid].co2Saved == SumCo2(Owned(db.rows, uid))
  }

  lemma {:induction false} OwnedAppend(a: seq<Row>, b: seq<Row>, uid: nat)
    ensures Owned(a + b, uid) == Owned(a, uid) + Owned(b, uid)
    decreases |a|
  {
    if |a| == 0 {
      assert a + b == b;
    } else {
      assert (a + b)[1..] == a[1..] + b;
      OwnedAppend(a[1..], b, uid);
    }
  }

  lemma {:induction false} SumsAppend(a: seq<Row>, b: seq<Row>)
    ensures SumAnnual(a + b) == SumAnnual(a) + SumAnnual(b)
    ensures SumCo2(a + b) == SumCo2(a) + SumCo2(b)
    decreases |a|
  {
    if |a| == 0 {
      assert a + b == b;
    } else {
      assert (a + b)[1..] == a[1..] + b;
      SumsAppend(a[1..], b);
    }
  }

  /** A freshly registered user, who owns no rows yet, starts with stats
      that match the table. */
  lemma NewUserStatsMatch(db: Db, uid: nat, name: string, email: string, passwordHash: string)
    requires forall row :: row in db.rows ==> row.userId != uid
    ensures StatsMatch(db.(users := db.users[uid := NewUser(uid, name, email, passwordHash)]), uid)
  {
    NoneOwned(db.rows, uid);
  }

  /** A table holding none of the caller's rows selects nothing. */
  lemma {:induction false} NoneOwned(rows: seq<Row>, uid: nat)
    requires forall row :: row in rows ==> row.userId != uid
    ensures Owned(rows, uid) == []
    decreases |rows|
  {
    if |rows| > 0 {
      assert rows[0] in rows;
      NoneOwned(rows[1..], uid);
    }
  }

  /** Creating a report keeps the owner's stats equal to the sums over the
      owner's rows. */
  lemma CreateKeepsStatsMatch(db: Db, uid: nat, body: CreateBody, now: int, defaultTitle: string)
    requires StatsMatch(db, uid)
    ensures StatsMatch(CreateReport(db, uid, body, now, defaultTitle).0, uid)
  {
    var (db', row) := CreateReport(db, uid, body, now, defaultTitle);
    OwnedAppend(db.rows, [row], uid);
    assert Owned([row], uid) == [row] by {
      assert [row][1..] == [];
    }
    SumsAppend(Owned(db.rows, uid), [row]);
  }

  /** Deleting a report keeps the owner's stats equal to the sums over the
      owner's rows, provided no savings are negative (so the floor at 0
      never cuts in). */
  lemma DeleteKeepsStatsMatch(db: Db, uid: nat, id: nat)
    requires StatsMatch(db, uid)
    requires forall row :: row in db.rows && row.userId == uid ==> row.annualSavings >= 0.0 && row.co2Savings >= 0.0
    ensures StatsMatch(DeleteReport(db, uid, id).0, uid)
  {
    match FindOwned(db.rows, id, uid)
    case None =>
    case Some(i) =>
      var row := db.rows[i];
      var db' := DeleteReport(db, uid, id).0;
      assert db'.rows == Without(db.rows, i);
      OwnedAroundDeleted(db.rows, i, uid);
      var ob, oa := Owned(db.rows[..i], uid), Owned(db.rows[i + 1..], uid);
      assert Owned(db'.rows, uid) == ob + oa;
      if uid in db.users {
        var u := db.users[uid];
        assert db'.users[uid] == DebitStats(u, row);
        SumsAround(ob, row, oa);
        NonNegativeSums(ob + oa, uid, db.rows);
        assert u.totalReports == |ob + oa| + 1;
        assert u.totalSavings - row.annualSavings == SumAnnual(ob + oa) >= 0.0;
        assert u.co2Saved - row.co2Savings == SumCo2(ob + oa) >= 0.0;
      }
  }

  /** The caller's rows before and after deleting their row at `i`: the
      same selection with that one row taken out. */
  lemma OwnedAroundDeleted(rows: seq<Row>, i: nat, uid: nat)
    requires i < |rows| && rows[i].userId == uid
    ensures Owned(rows, uid) == Owned(rows[..i], uid) + [rows[i]] + Owned(rows[i + 1..], uid)
    ensures Owned(Without(rows, i), uid) == Owned(rows[..i], uid) + Owned(rows[i + 1..], uid)
    ensures forall row :: row in Owned(rows[..i], uid) ==> row in rows && row.userId == uid
    ensures forall row :: row in Owned(rows[i + 1..], uid) ==> row in rows && row.userId == uid
  {
    var row := rows[i];
    var before, after := rows[..i], rows[i + 1..];
    assert rows == before + [row] + after;
    OwnedAppend(before + [row], after, uid);
    OwnedAppend(before, [row], uid);
    OwnedAppend(before, after, uid);
    assert Owned([row], uid) == [row] by {
      assert [row][1..] == [];
    }
    assert Without(rows, i) == before + after;
  }

  /** Taking one row out of a list takes its values out of both sums. */
  lemma SumsAround(ob: seq<Row>, row: Row, oa: seq<Row>)
    ensures SumAnnual(ob + [row] + oa) == SumAnnual(ob + oa) + row.annualSavings
    ensures SumCo2(ob + [row] + oa) == SumCo2(ob + oa) + row.co2Savings
  {
    SumsAppend(ob + [row], oa);
    SumsAppend(ob, [row]);
    SumsAppend(ob, oa);
    assert [row][1..] == [];
  }

  lemma {:induction false} NonNegativeSums(rows: seq<Row>, uid: nat, table: seq<Row>)
    requires forall row :: row in rows ==> row in table && row.userId == uid
    requires forall row :: row in table && row.userId == uid ==> row.annualSavings >= 0.0 && row.co2Savings >= 0.0
    ensures SumAnnual(rows) >= 0.0 && SumCo2(rows) >= 0.0
    decreases |rows|
  {
    if |rows| > 0 {
      assert rows[0] in rows;
      NonNegativeSums(rows[1..], uid, table);
    }
  }

  /** Creating a report and deleting it again restores the table and the
      owner's three stat columns, as long as the stats were not negative (so
      the floor at 0 does not cut in). */
  lemma CreateThenDeleteRestores(db: Db, uid: nat, body: CreateBody, now: int, defaultTitle: string)
    requires Valid(db)
    requires uid in db.users
    requires db.users[uid].totalSavings >= 0.0 && db.users[uid].co2Saved >= 0.0
    ensures var (db1, row) := CreateReport(db, uid, body, now, defaultTitle);
      var db2 := DeleteReport(db1, uid, row.id).0;
      && db2.rows == db.rows
      && db2.users == db.users
  {
    var (db1, row) := CreateReport(db, uid, body, now, defaultTitle);
    var n := |db.rows|;
    assert db1.rows[n] == row;
    assert FindOwned(db1.rows, row.id, uid).Some?;
    var i := FindOwned(db1.rows, row.id, uid).value;
    assert db1.rows[..n] == db.rows;
    var u := db.users[uid];
    var u1 := db1.users[uid];
    assert DebitStats(u1, row) == u;
  }
}

=== FILE: scoring.dfy ===
/** The scoring engine's reference definitions: the five-tier efficiency table
    keyed on consumption per square metre, the savings, investment, ROI and CO2
    formulas, and the ordered rule table that builds the tip list. The three
    copies of the classifier in the source (the calculator page, the all-in-one
    optimizer component and the backend Report model) are transcribed in their
    own modules and proved equal to the table defined here. */
module Scoring {
  import opened Common

  /** The five efficiency tiers, best first. */
  datatype Tier = Ottimo | Buono | Medio | Scarso | Critico

  /** What the classifier returns: `{ level, score, color, factor }`. */
  datatype Efficiency = Efficiency(level: Tier, score: int, color: string, factor: real)

  /** The result of a JavaScript division: a finite number or one of the
      IEEE-754 specials a division by zero produces. */
  datatype Quotient = Finite(v: real) | PosInf | NegInf | NaN

  /** `a / b` on JavaScript numbers (ignoring signed zero). */
  function Divide(a: real, b: real): (q: Quotient)
    ensures b != 0.0 ==> q == Finite(a / b)
    ensures b == 0.0 ==> !q.Finite?
    ensures q.NaN? <==> a == 0.0 && b == 0.0
  {
    if b != 0.0 then Finite(a / b)
    else if a > 0.0 then PosInf
    else if a < 0.0 then NegInf
    else NaN
  }

  /** The JavaScript comparison `q < bound`: false for NaN and +Infinity. */
  predicate Below(q: Quotient, bound: real) {
    match q
    case Finite(v) => v < bound
    case NegInf => true
    case PosInf => false
    case NaN => false
  }

  const OttimoLevel := Efficiency(Ottimo, 90, "#059669", 0.3)
  const BuonoLevel := Efficiency(Buono, 75, "#2563eb", 0.5)
  const MedioLevel := Efficiency(Medio, 60, "#eab308", 0.7)
  const ScarsoLevel := Efficiency(Scarso, 40, "#f97316", 0.9)
  const CriticoLevel := Efficiency(Critico, 25, "#dc2626", 1.0)

  /** Every rating the classifier can produce. */
  const Levels: set<Efficiency> := {OttimoLevel, BuonoLevel, MedioLevel, ScarsoLevel, CriticoLevel}

  /** The tier table: each band's exclusive upper bound on the ratio and the
      rating it assigns, tried in ascending order; a ratio that passes no band
      is `Critico`. */
  const Bands: seq<(real, Efficiency)> :=
    [(5.0, OttimoLevel), (10.0, BuonoLevel), (15.0, MedioLevel), (20.0, ScarsoLevel)]

  /** The first band whose bound the ratio is strictly below. */
  function ClassifyFrom(q: Quotient, bands: seq<(real, Efficiency)>): Efficiency
    decreases |bands|
  {
    if |bands| == 0 then CriticoLevel
    else if Below(q, bands[0].0) then bands[0].1
    else ClassifyFrom(q, bands[1..])
  }

  /** The reference classifier: the rating of a consumption/area quotient. */
  function Classify(q: Quotient): Efficiency {
    ClassifyFrom(q, Bands)
  }

  /** The table unrolled: the bands are tried in ascending order and the
      first strict `<` that holds decides the tier. */
  lemma ClassifyCascade(q: Quotient)
    ensures Classify(q) ==
      if Below(q, 5.0) then OttimoLevel
      else if Below(q, 10.0) then BuonoLevel
      else if Below(q, 15.0) then MedioLevel
      else if Below(q, 20.0) then ScarsoLevel
      else CriticoLevel
    ensures Classify(q) in Levels
  {
    var b1 := Bands[1..];
    var b2 := b1[1..];
    var b3 := b2[1..];
    var b4 := b3[1..];
    assert b1 == [(10.0, BuonoLevel), (15.0, MedioLevel), (20.0, ScarsoLevel)];
    assert b2 == [(15.0, MedioLevel), (20.0, ScarsoLevel)];
    assert b3 == [(20.0, ScarsoLevel)];
    assert b4 == [];
    assert ClassifyFrom(q, b4) == CriticoLevel;
    assert ClassifyFrom(q, b3) == if Below(q, 20.0) then ScarsoLevel else CriticoLevel;
    assert ClassifyFrom(q, b2) == if Below(q, 15.0) then MedioLevel else ClassifyFrom(q, b3);
    assert ClassifyFrom(q, b1) == if Below(q, 10.0) then BuonoLevel else ClassifyFrom(q, b2);
  }

  /** The five tiers partition the ratios with no gap or overlap; a ratio of
      exactly 5, 10, 15 or 20 falls into the worse tier because every test is a
      strict `<`. */
  lemma ClassifyPartition(r: real)
    ensures r < 5.0 ==> Classify(Finite(r)) == OttimoLevel
    ensures 5.0 <= r < 10.0 ==> Classify(Finite(r)) == BuonoLevel
    ensures 10.0 <= r < 15.0 ==> Classify(Finite(r)) == MedioLevel
    ensures 15.0 <= r < 20.0 ==> Classify(Finite(r)) == ScarsoLevel
    ensures 20.0 <= r ==> Classify(Finite(r)) == CriticoLevel
  {
    ClassifyCascade(Finite(r));
  }

  /** Division by zero never fails: a zero area with positive consumption is
      +Infinity and 0/0 is NaN, and both fall through every band to `Critico`;
      negative consumption over a zero area is -Infinity, below every band. */
  lemma ClassifyNonFinite(q: Quotient)
    requires !q.Finite?
    ensures q.PosInf? || q.NaN? ==> Classify(q) == CriticoLevel
    ensures q.NegInf? ==> Classify(q) == OttimoLevel
  {
    ClassifyCascade(q);
  }

  /** As the ratio grows the score never rises and the factor never falls. */
  lemma ClassifyMonotone(r1: real, r2: real)
    requires r1 <= r2
    ensures Classify(Finite(r2)).score <= Classify(Finite(r1)).score
    ensures Classify(Finite(r1)).factor <= Classify(Finite(r2)).factor
  {
    ClassifyPartition(r1);
    ClassifyPartition(r2);
  }

  /** Across the five ratings a higher score always pairs with a strictly lower
      factor. */
  lemma ScoreFactorAntitone(e1: Efficiency, e2: Efficiency)
    requires e1 in Levels && e2 in Levels
    ensures e1.score > e2.score <==> e1.factor < e2.factor
    ensures e1.score == e2.score <==> e1 == e2
  {
  }

  /** JavaScript `Math.round` over the reals: halves round up. */
  function RoundHalfUp(x: real): (n: int)
    ensures n as real <= x + 0.5 < n as real + 1.0
  {
    (x + 0.5).Floor
  }

  /** `calculateSavingsPotential`'s result. */
  datatype Savings = Savings(monthly: real, annual: real, percentage: int)

  /** The savings formula: 45% of the bill scaled by the tier factor, twelve
      months a year, and the rounded percentage. */
  function SavingsPotential(bill: real, factor: real): (s: Savings)
    ensures s.annual == 12.0 * s.monthly
    ensures s.monthly == bill * 0.45 * factor
    ensures s.percentage as real <= 45.0 * factor + 0.5 < s.percentage as real + 1.0
    ensures 0.0 <= factor <= 1.0 ==> 0 <= s.percentage <= 45
    ensures 0.0 <= bill && 0.0 <= factor <= 1.0 ==> 0.0 <= s.monthly <= bill * 0.45
  {
    var basePotential := bill * 0.45;
    Savings(basePotential * factor, basePotential * factor * 12.0, RoundHalfUp(45.0 * factor))
  }

  /** The percentage each tier advertises; over every tier it lies in [14, 45].
      For the middle tier 45 * 0.7 is exactly 31.5 over the reals but just
      below it in binary floating point, so only the bracket 31..32 is stated
      there. */
  lemma PercentagePerTier(e: Efficiency)
    requires e in Levels
    ensures e.level == Ottimo ==> SavingsPotential(1.0, e.factor).percentage == 14
    ensures e.level == Buono ==> SavingsPotential(1.0, e.factor).percentage == 23
    ensures e.level == Medio ==> 31 <= SavingsPotential(1.0, e.factor).percentage <= 32
    ensures e.level == Scarso ==> SavingsPotential(1.0, e.factor).percentage == 41
    ensures e.level == Critico ==> SavingsPotential(1.0, e.factor).percentage == 45
    ensures 14 <= SavingsPotential(1.0, e.factor).percentage <= 45
  {
  }

  /** The one-off investment estimate: 35 per square metre. */
  function Investment(area: real): real {
    area * 35.0
  }

  /** `investment / (annualSavings || 1)`: the payback time, falling back to a
      divisor of 1 when there are no savings, so it never divides by zero. */
  function Roi(investment: real, annualSavings: real): (years: real)
    ensures annualSavings != 0.0 ==> years * annualSavings == investment
    ensures annualSavings == 0.0 ==> years == investment
  {
    investment / (if annualSavings != 0.0 then annualSavings else 1.0)
  }

  /** The client's CO2 estimate: half a kilogram per kWh over twelve months. */
  function ClientCo2(monthlyConsumption: real): real {
    monthlyConsumption * 0.5 * 12.0
  }

  /** The backend's fallback CO2 estimate: 30% of the consumption at half a
      kilogram per kWh, in tonnes. */
  function BackendCo2(consumption: real): real {
    consumption * 0.3 * 0.5 / 1000.0
  }

  /** The two CO2 formulas disagree by a factor of 40000 on every non-zero
      consumption, so the figure a report shows depends on where it was made. */
  lemma Co2FormulasDisagree(consumption: real)
    ensures ClientCo2(consumption) == 40000.0 * BackendCo2(consumption)
    ensures consumption != 0.0 ==> ClientCo2(consumption) != BackendCo2(consumption)
  {
  }

  datatype Priority = Alta | Media

  /** One recommendation. The optimizer component's copy carries an icon
      instead of a priority, hence the option. */
  datatype Tip = Tip(title: string, description: string, savings: string, priority: Option<Priority>)

  const LedTip := Tip("Illuminazione LED", "Sostituisci tutte le lampade con LED ad alta efficienza",
                      "Fino al 80% sui consumi di illuminazione", Some(Alta))
  const InsulationTip := Tip("Isolamento termico", "Migliora l'isolamento di pareti e infissi",
                             "Riduzione del 30% sui costi di riscaldamento", Some(Media))
  const SmartControlTip := Tip("Gestione intelligente", "Installa termostati smart e sistemi di controllo",
                               "Ottimizzazione automatica dei consumi", Some(Media))

  /** A rule fires for every score strictly below `below`, or always when
      `below` is absent. */
  datatype TipRule = TipRule(below: Option<int>, tip: Tip)

  /** The ordered rule table the tip list is built from. */
  const TipRules: seq<TipRule> := [TipRule(Some(50), LedTip), TipRule(None, InsulationTip), TipRule(None, SmartControlTip)]

  /** The tips of the rules that fire for `score`, in table order. */
  function ApplyRules(rules: seq<TipRule>, score: int): (tips: seq<Tip>)
    ensures |tips| <= |rules|
    decreases |rules|
  {
    if |rules| == 0 then []
    else
      var rest := ApplyRules(rules[1..], score);
      if rules[0].below.None? || score < rules[0].below.value then [rules[0].tip] + rest else rest
  }

  /** The reference tip list. */
  function GenerateTips(score: int): seq<Tip> {
    ApplyRules(TipRules, score)
  }

  /** The tip list has three entries, high-priority LED lighting first, exactly
      when the score is below 50, and otherwise two; it always ends with
      insulation then smart control, both of medium priority. */
  lemma TipsShape(score: int)
    ensures score < 50 ==> GenerateTips(score) == [LedTip, InsulationTip, SmartControlTip]
    ensures score >= 50 ==> GenerateTips(score) == [InsulationTip, SmartControlTip]
    ensures |GenerateTips(score)| == 3 <==> score < 50
    ensures GenerateTips(score)[0] == LedTip <==> score < 50
    ensures GenerateTips(score)[|GenerateTips(score)| - 2..] == [InsulationTip, SmartControlTip]
  {
    var r2 := TipRules[1..][1..];
    assert r2[1..] == [];
    assert ApplyRules(r2, score) == [SmartControlTip];
    assert ApplyRules(TipRules[1..], score) == [InsulationTip, SmartControlTip];
  }
}

=== FILE: scoring_copies.dfy ===
/** The three copies of the scoring engine side by side: the calculator page,
    the optimizer component and the backend Report model classify every input
    alike, and the two client copies compute the same savings and tips. */
module ScoringCopies {
  import opened Scoring
  import CalculatorPage
  import EnergyOptimizer
  import ReportModel

  /** All three classifiers return the same level, score, color and factor
      for the same consumption and area. */
  lemma ClassifiersAgree(consumption: real, area: real, row: ReportModel.ReportRecord)
    requires row.consumption == consumption && row.area == area
    ensures CalculatorPage.EfficiencyLevel(consumption, area) == EnergyOptimizer.EfficiencyLevel(consumption, area)
    ensures ReportModel.CalculateEfficiency(row) == CalculatorPage.EfficiencyLevel(consumption, area)
  {
  }

  /** The two client copies build tip lists of the same length with the same
      titles in the same order; only the page's copy carries priorities. */
  lemma TipListsAgree(score: int)
    ensures |EnergyOptimizer.GenerateTips(score)| == |CalculatorPage.GenerateTips(score)|
    ensures forall i :: 0 <= i < |CalculatorPage.GenerateTips(score)| ==>
      EnergyOptimizer.GenerateTips(score)[i].title == CalculatorPage.GenerateTips(score)[i].title
  {
  }
}

=== FILE: shared_landing_page.dfy ===
/** The landing page a shared link opens: who referred the visitor, and an
    offer countdown in hours and minutes that ticks once a minute and starts
    over at 23:59. */
module SharedLandingPage {
  import opened Common

  /** `searchParams.get('ref') || 'Un amico'`: the referrer named in the
      link, or "a friend" when the parameter is missing or empty. */
  function Referrer(ref: Option<string>): (name: string)
    ensures ref.Some? && ref.value != "" ==> name == ref.value
    ensures ref.None? || ref.value == "" ==> name == "Un amico"
    ensures name != ""
  {
    if ref.Some? && ref.value != "" then ref.value else "Un amico"
  }

  datatype Clock = Clock(hours: int, minutes: int)

  /** The countdown's first value. */
  const Start := Clock(23, 59)

  /** The minutes left on the clock. */
  function TotalMinutes(t: Clock): int {
    t.hours * 60 + t.minutes
  }

  predicate InRange(t: Clock) {
    0 <= t.hours <= 23 && 0 <= t.minutes <= 59
  }

  /** One tick of the `setTimeLeft` reducer: take a minute, borrowing from
      the hours; at zero start over. */
  function Tick(t: Clock): (t': Clock)
    ensures t.minutes > 0 ==> t' == t.(minutes := t.minutes - 1)
    ensures t.minutes <= 0 && t.hours > 0 ==> t' == Clock(t.hours - 1, 59)
    ensures t.minutes <= 0 && t.hours <= 0 ==> t' == Start
  {
    if t.minutes > 0 then t.(minutes := t.minutes - 1)
    else if t.hours > 0 then Clock(t.hours - 1, 59)
    else Start
  }

  /** On a clock in range a tick takes exactly one minute off, except at
      0:00, where it starts over; the clock stays in range. */
  lemma TickCountsDown(t: Clock)
    requires InRange(t)
    ensures InRange(Tick(t))
    ensures TotalMinutes(t) > 0 ==> TotalMinutes(Tick(t)) == TotalMinutes(t) - 1
    ensures TotalMinutes(t) == 0 ==> Tick(t) == Start
  {
  }

  /** The clock after `n` ticks. */
  function Ticks(t: Clock, n: nat): Clock {
    if n == 0 then t else Tick(Ticks(t, n - 1))
  }

  /** One more tick moves one place along the cycle, and from its last
      place back to its first. */
  lemma NextInCycle(k: nat)
    ensures k % 1440 == 1439 ==> (k + 1) % 1440 == 0
    ensures k % 1440 < 1439 ==> (k + 1) % 1440 == k % 1440 + 1
  {
  }

  /** After `n` ticks from the start the clock shows the minutes left in the
      current day-long cycle, always in range. */
  lemma {:induction false} TicksFromStart(n: nat)
    ensures InRange(Ticks(Start, n))
    ensures TotalMinutes(Ticks(Start, n)) == 1439 - n % 1440
  {
    if n > 0 {
      TicksFromStart(n - 1);
      StepInCycle(Ticks(Start, n - 1), n - 1);
    }
  }

  /** A clock in range that shows place `k` of the cycle shows place `k + 1`
      after one tick. */
  lemma StepInCycle(t: Clock, k: nat)
    requires InRange(t) && TotalMinutes(t) == 1439 - k % 1440
    ensures InRange(Tick(t))
    ensures TotalMinutes(Tick(t)) == 1439 - (k + 1) % 1440
  {
    TickCountsDown(t);
    NextInCycle(k);
  }
}

=== FILE: storage.dfy ===
/** `StorageManager`: the browser-storage policy that keeps a guest's reports
    for 24 hours and a registered user's reports without expiry.

    Browser storage is a map from key to the string stored there; the model
    names the shapes of those strings rather than the strings. Time is integer
    milliseconds, standing in for the ISO 8601 instants the source writes. */
module Storage {
  import opened Common
  import opened Records

  const ReportsKey := "energy_optimizer_reports"
  const UserDataKey := "energy_optimizer_user"
  const FirstVisitKey := "energy_optimizer_first_visit"
  const GuestExpiryKey := "energy_optimizer_guest_expiry"

  /** `STORAGE_KEYS`. */
  const StorageKeys: set<string> := {ReportsKey, UserDataKey, FirstVisitKey, GuestExpiryKey}

  /** `GUEST_EXPIRY_HOURS` in milliseconds. */
  const GuestTtl: int := 24 * 60 * 60 * 1000

  /** The string stored under a key, by shape. */
  datatype Value =
    | ReportList(reports: seq<LocalReport>)                      // a JSON array of reports
    | Envelope(data: seq<LocalReport>, timestamp: int, expiresAt: int)  // `saveWithTimestamp`'s wrapper
    | UserRecord(isRegistered: bool, registeredAt: Option<int>)  // a JSON user object; the flag is `isRegistered === true`
    | Instant(ms: int)                                           // an ISO 8601 instant, which is not JSON
    | Unparsable(text: string)                                   // any other text; "" is falsy in the source

  type Store = map<string, Value>

  /** `localStorage.getItem(key)` is falsy: the key is missing or holds "". */
  predicate Missing(s: Store, key: string) {
    key !in s || s[key] == Unparsable("")
  }

  /** `JSON.parse` of the value succeeds. */
  predicate IsJson(v: Value) {
    v.ReportList? || v.Envelope? || v.UserRecord?
  }

  /** `isUserRegistered`: the user record parses and its `isRegistered` is
      exactly `true`; an absent, unparsable or differently shaped record reads
      as a guest. */
  predicate IsUserRegistered(s: Store) {
    UserDataKey in s && s[UserDataKey].UserRecord? && s[UserDataKey].isRegistered
  }

  /** What `item.data || item` yields: the reports held, or some other JSON
      object that is not an array of reports. */
  datatype Fetched = Reports(list: seq<LocalReport>) | OtherJson

  /** `saveWithTimestamp(key, data)` at time `now`. */
  function SaveWithTimestamp(s: Store, key: string, data: seq<LocalReport>, now: int): (s': Store)
    ensures s'.Keys == s.Keys + {key}
    ensures s'[key] == Envelope(data, now, now + GuestTtl)
    ensures forall k :: k in s && k != key ==> s'[k] == s[k]
  {
    s[key := Envelope(data, now, now + GuestTtl)]
  }

  /** `getWithExpiry(key)` at time `now`: the data and the store afterwards.
      For a guest, a wrapper whose expiry is strictly before `now` is deleted
      and nothing is returned; at exactly the expiry it is still returned. */
  function GetWithExpiry(s: Store, key: string, now: int): (r: (Option<Fetched>, Store))
    ensures r.1 == s || (key in s && s[key].Envelope? && r.1 == s - {key} && r.0.None?)
    ensures Missing(s, key) || !IsJson(s[key]) ==> r.0.None?
    ensures key in s && s[key].Envelope? && (IsUserRegistered(s) || now <= s[key].expiresAt)
            ==> r == (Some(Reports(s[key].data)), s)
    ensures key in s && s[key].Envelope? && !IsUserRegistered(s) && s[key].expiresAt < now
            ==> r == (None, s - {key})
  {
    if Missing(s, key) then (None, s)
    else match s[key]
      case Envelope(data, _, expiresAt) =>
        if IsUserRegistered(s) then (Some(Reports(data)), s)
        else if expiresAt < now then (None, s - {key})
        else (Some(Reports(data)), s)
      case ReportList(rs) => (Some(Reports(rs)), s)
      case UserRecord(_, _) => (Some(OtherJson), s)
      case _ => (None, s)
  }

  /** Why reading the reports did not produce a list: the stored text is not
      JSON (a registered user's read throws), or it is JSON but not an array. */
  datatype ReadFault = ParseError | NotAList

  /** `getReports()` at time `now`: the reports and the store afterwards. A
      registered user reads the raw slot; a guest reads through the expiry
      check, and anything unreadable is an empty list. */
  function GetReports(s: Store, now: int): (r: (Result<seq<LocalReport>, ReadFault>, Store))
    ensures IsUserRegistered(s) ==> r.1 == s
    ensures !IsUserRegistered(s) ==> r.0 != Err(ParseError)
    ensures Missing(s, ReportsKey) ==> r == (Ok([]), s)
    ensures ReportsKey in s && s[ReportsKey].ReportList? ==> r == (Ok(s[ReportsKey].reports), s)
    ensures r.1 == s || r.1 == s - {ReportsKey}
  {
    if IsUserRegistered(s) then
      if Missing(s, ReportsKey) then (Ok([]), s)
      else match s[ReportsKey]
        case ReportList(rs) => (Ok(rs), s)
        case Envelope(_, _, _) => (Err(NotAList), s)
        case UserRecord(_, _) => (Err(NotAList), s)
        case _ => (Err(ParseError), s)
    else
      var (fetched, s') := GetWithExpiry(s, ReportsKey, now);
      match fetched
      case None => (Ok([]), s')
      case Some(Reports(rs)) => (Ok(rs), s')
      case Some(OtherJson) => (Err(NotAList), s')
  }

  /** `setGuestExpiryWarning()` at time `now`. */
  function SetGuestExpiryWarning(s: Store, now: int): Store {
    s[GuestExpiryKey := Instant(now + GuestTtl)]
  }

  /** `saveReports(reports)` at time `now`: a registered user's list is stored
      as is; a guest's list is wrapped with one expiry for the whole list, and
      the same expiry is written to the guest-expiry slot. */
  function SaveReports(s: Store, reports: seq<LocalReport>, now: int): (s': Store)
    ensures IsUserRegistered(s) ==> s' == s[ReportsKey := ReportList(reports)]
    ensures !IsUserRegistered(s) ==>
      s' == s[ReportsKey := Envelope(reports, now, now + GuestTtl)][GuestExpiryKey := Instant(now + GuestTtl)]
  {
    if IsUserRegistered(s) then s[ReportsKey := ReportList(reports)]
    else SetGuestExpiryWarning(SaveWithTimestamp(s, ReportsKey, reports, now), now)
  }

  /** Saving never changes who the user is. */
  lemma SaveKeepsRegistration(s: Store, reports: seq<LocalReport>, now: int)
    ensures IsUserRegistered(SaveReports(s, reports, now)) == IsUserRegistered(s)
    ensures UserDataKey in s ==> UserDataKey in SaveReports(s, reports, now)
                                 && SaveReports(s, reports, now)[UserDataKey] == s[UserDataKey]
  {
  }

  /** A guest's saved list reads back unchanged at any time up to and
      including 24 hours after the save. */
  lemma GuestRoundTrip(s: Store, reports: seq<LocalReport>, t: int, later: int)
    requires !IsUserRegistered(s)
    requires later <= t + GuestTtl
    ensures GetReports(SaveReports(s, reports, t), later) == (Ok(reports), SaveReports(s, reports, t))
  {
    var s' := SaveReports(s, reports, t);
    assert s'[ReportsKey] == Envelope(reports, t, t + GuestTtl);
    assert !IsUserRegistered(s');
  }

  /** Strictly after the expiry a guest reads an empty list and the reports
      are deleted; the guest-expiry slot itself stays behind. */
  lemma GuestExpiry(s: Store, reports: seq<LocalReport>, t: int, later: int)
    requires !IsUserRegistered(s)
    requires later > t + GuestTtl
    ensures GetReports(SaveReports(s, reports, t), later).0 == Ok([])
    ensures ReportsKey !in GetReports(SaveReports(s, reports, t), later).1
    ensures GetReports(SaveReports(s, reports, t), later).1[GuestExpiryKey] == Instant(t + GuestTtl)
  {
    var s' := SaveReports(s, reports, t);
    assert s'[ReportsKey] == Envelope(reports, t, t + GuestTtl);
    assert !IsUserRegistered(s');
  }

  /** Every guest save resets one shared expiry, 24 hours from the save, both
      in the wrapper and in the guest-expiry slot. */
  lemma GuestSaveSharesExpiry(s: Store, reports: seq<LocalReport>, t: int)
    requires !IsUserRegistered(s)
    ensures SaveReports(s, reports, t)[ReportsKey].Envelope?
    ensures SaveReports(s, reports, t)[ReportsKey].expiresAt == t + GuestTtl
    ensures SaveReports(s, reports, t)[GuestExpiryKey] == Instant(SaveReports(s, reports, t)[ReportsKey].expiresAt)
  {
  }

  /** A registered user's saved list reads back unchanged at any time. */
  lemma RegisteredRoundTrip(s: Store, reports: seq<LocalReport>, t: int, later: int)
    requires IsUserRegistered(s)
    ensures GetReports(SaveReports(s, reports, t), later) == (Ok(reports), SaveReports(s, reports, t))
  {
    var s' := SaveReports(s, reports, t);
    assert IsUserRegistered(s');
  }

  /** The remaining guest time: whole hours and minutes, or NaN fields when the
      slot holds something that is not a date. */
  datatype Remaining = Left(hours: nat, minutes: nat) | InvalidDate

  /** `getGuestTimeRemaining()` at time `now`: nothing for a registered user or
      when no expiry was written; otherwise the time to the expiry, clamped at
      zero, as whole hours and whole minutes past those hours. */
  function GetGuestTimeRemaining(s: Store, now: int): (r: Option<Remaining>)
    ensures IsUserRegistered(s) || Missing(s, GuestExpiryKey) <==> r.None?
    ensures r.Some? ==> (r.value.Left? <==> s[GuestExpiryKey].Instant?)
    ensures r.Some? && r.value.Left? ==>
      var left := MaxZero(s[GuestExpiryKey].ms - now);
      && r.value.minutes <= 59
      && r.value.hours * 3600000 + r.value.minutes * 60000 <= left
      && left < r.value.hours * 3600000 + (r.value.minutes + 1) * 60000
  {
    if IsUserRegistered(s) || Missing(s, GuestExpiryKey) then None
    else match s[GuestExpiryKey]
      case Instant(expiry) =>
        var left := MaxZero(expiry - now);
        Some(Left(left / 3600000, (left % 3600000) / 60000))
      case _ => Some(InvalidDate)
  }

  /** `registerUser(userData)` at time `now`: reads the reports as they are
      just before the call, marks the user registered, stores those reports
      without expiry and removes the guest-expiry slot. A registered user whose
      report slot is not JSON makes the first read throw, before any write. */
  function RegisterUser(s: Store, now: int): (r: Result<Store, ReadFault>)
    ensures r.Err? <==> IsUserRegistered(s) && ReportsKey in s && !IsJson(s[ReportsKey]) && !Missing(s, ReportsKey)
    ensures r.Ok? ==> IsUserRegistered(r.value) && GuestExpiryKey !in r.value
    ensures r.Ok? && GetReports(s, now).0.Ok? ==> ReportsKey in r.value && r.value[ReportsKey] == ReportList(GetReports(s, now).0.value)
  {
    var (read, s1) := GetReports(s, now);
    if read == Err(ParseError) then Err(ParseError)
    else
      var s2 := s1[UserDataKey := UserRecord(true, Some(now))];
      var s3 := match read
        case Ok(rs) => s2[ReportsKey := ReportList(rs)]
        case Err(_) => s2[ReportsKey := s[ReportsKey]];
      Ok(s3 - {GuestExpiryKey})
  }

  /** Registration migrates the reports readable just before it (none, if the
      guest's had already expired) so that they read back at any later time,
      with no expiry. */
  lemma RegistrationMigrates(s: Store, now: int, later: int)
    requires GetReports(s, now).0.Ok?
    ensures RegisterUser(s, now).Ok?
    ensures GetReports(RegisterUser(s, now).value, later).0 == GetReports(s, now).0
  {
    var s' := RegisterUser(s, now).value;
    assert IsUserRegistered(s');
    assert s'[ReportsKey] == ReportList(GetReports(s, now).0.value);
  }

  /** Registering twice leaves the same reports as registering once: a retried
      registration does not duplicate them. */
  lemma RegistrationIdempotent(s: Store, now: int, later: int)
    requires GetReports(s, now).0.Ok?
    ensures RegisterUser(s, now).Ok?
    ensures RegisterUser(RegisterUser(s, now).value, later).Ok?
    ensures RegisterUser(RegisterUser(s, now).value, later).value[ReportsKey] == RegisterUser(s, now).value[ReportsKey]
  {
    RegistrationMigrates(s, now, later);
  }

  /** `cleanExpiredData()`: a guest's read, for its side effect of deleting
      expired reports; a registered user's store is untouched. */
  function CleanExpiredData(s: Store, now: int): (s': Store)
    ensures IsUserRegistered(s) ==> s' == s
    ensures s' == s || s' == s - {ReportsKey}
  {
    if !IsUserRegistered(s) then GetReports(s, now).1 else s
  }

  /** `clearAll()`: removes exactly the four storage keys and leaves every
      other key and its value alone. */
  function ClearAll(s: Store): (s': Store)
    ensures s'.Keys == s.Keys - StorageKeys
    ensures forall k :: k in s' ==> s'[k] == s[k]
    ensures !IsUserRegistered(s')
  {
    s - StorageKeys
  }
}

=== FILE: users.dfy ===
/** The backend `User` model: its defaults, the `updateStats` instance method,
    and the `toJSON` serialisation that hides credentials. */
module Users {
  import opened Common

  datatype Role = UserRole | Admin | SuperAdmin
  datatype SubscriptionType = Free | Premium
  datatype Plan = Monthly | Yearly

  datatype User = User(
    id: nat, name: string, email: string, password: string,
    role: Role, subscriptionType: SubscriptionType, subscriptionPlan: Option<Plan>,
    subscriptionExpiry: Option<int>, subscriptionAutoRenew: bool,
    company: Option<string>, phone: Option<string>, street: Option<string>, city: Option<string>,
    province: Option<string>, postalCode: Option<string>, country: string,
    notificationEmail: bool, notificationReports: bool, notificationTips: bool, language: string,
    totalReports: nat, totalSavings: real, co2Saved: real, totalShares: nat, bonusMonths: nat,
    isActive: bool, emailVerified: bool,
    emailVerificationToken: Option<string>, passwordResetToken: Option<string>,
    passwordResetExpires: Option<int>, lastLogin: Option<int>)

  /** The users table by id. */
  type UserTable = map<nat, User>

  /** A freshly created user: only name, email and (hashed) password are
      given; every other column takes its schema default. */
  function NewUser(id: nat, name: string, email: string, passwordHash: string): (u: User)
    ensures u.role == UserRole && u.subscriptionType == Free && u.subscriptionPlan.None?
    ensures u.totalReports == 0 && u.totalSavings == 0.0 && u.co2Saved == 0.0
    ensures u.totalShares == 0 && u.bonusMonths == 0
    ensures u.isActive && !u.emailVerified && u.country == "IT" && u.language == "it"
    ensures u.id == id && u.name == name && u.email == email && u.password == passwordHash
  {
    User(id, name, email, passwordHash, UserRole, Free, None, None, false,
         None, None, None, None, None, None, "IT",
         true, true, true, "it",
         0, 0.0, 0.0, 0, 0,
         true, false, None, None, None, None)
  }

  /** The three stat columns are the only difference between two users. */
  predicate SameExceptStats(u: User, v: User) {
    v.(totalReports := u.totalReports, totalSavings := u.totalSavings, co2Saved := u.co2Saved) == u
  }

  /** `updateStats(report)`, given the report's annual savings and CO2 columns
      (`None` when missing): one more report, its savings and CO2 added (a
      missing value counts as 0), and no other column touched. */
  function UpdateStats(u: User, annualSavings: Option<real>, co2Savings: Option<real>): (v: User)
    ensures v.totalReports == u.totalReports + 1
    ensures v.totalSavings - u.totalSavings == annualSavings.GetOr(0.0)
    ensures v.co2Saved - u.co2Saved == co2Savings.GetOr(0.0)
    ensures SameExceptStats(u, v)
  {
    u.(totalReports := u.totalReports + 1,
       totalSavings := u.totalSavings + annualSavings.GetOr(0.0),
       co2Saved := u.co2Saved + co2Savings.GetOr(0.0))
  }

  /** A JSON attribute value. */
  datatype Attr = AStr(s: string) | AInt(i: int) | AReal(r: real) | ABool(b: bool) | ANull

  function OptStr(o: Option<string>): Attr {
    match o
    case Some(s) => AStr(s)
    case None => ANull
  }

  function OptInt(o: Option<int>): Attr {
    match o
    case Some(i) => AInt(i)
    case None => ANull
  }

  function RoleName(r: Role): string {
    match r
    case UserRole => "user"
    case Admin => "admin"
    case SuperAdmin => "superadmin"
  }

  function SubscriptionName(t: SubscriptionType): string {
    match t
    case Free => "free"
    case Premium => "premium"
  }

  function PlanAttr(p: Option<Plan>): Attr {
    match p
    case Some(Monthly) => AStr("monthly")
    case Some(Yearly) => AStr("yearly")
    case None => ANull
  }

  /** `this.get()`: every column by name. */
  function Attributes(u: User): map<string, Attr> {
    map[
      "id" := AInt(u.id), "name" := AStr(u.name), "email" := AStr(u.email), "password" := AStr(u.password),
      "role" := AStr(RoleName(u.role)), "subscriptionType" := AStr(SubscriptionName(u.subscriptionType)),
      "subscriptionPlan" := PlanAttr(u.subscriptionPlan), "subscriptionExpiry" := OptInt(u.subscriptionExpiry),
      "subscriptionAutoRenew" := ABool(u.subscriptionAutoRenew),
      "company" := OptStr(u.company), "phone" := OptStr(u.phone), "street" := OptStr(u.street),
      "city" := OptStr(u.city), "province" := OptStr(u.province), "postalCode" := OptStr(u.postalCode),
      "country" := AStr(u.country),
      "notificationEmail" := ABool(u.notificationEmail), "notificationReports" := ABool(u.notificationReports),
      "notificationTips" := ABool(u.notificationTips), "language" := AStr(u.language),
      "totalReports" := AInt(u.totalReports), "totalSavings" := AReal(u.totalSavings),
      "co2Saved" := AReal(u.co2Saved), "totalShares" := AInt(u.totalShares), "bonusMonths" := AInt(u.bonusMonths),
      "isActive" := ABool(u.isActive), "emailVerified" := ABool(u.emailVerified),
      "emailVerificationToken" := OptStr(u.emailVerificationToken),
      "passwordResetToken" := OptStr(u.passwordResetToken),
      "passwordResetExpires" := OptInt(u.passwordResetExpires), "lastLogin" := OptInt(u.lastLogin)
    ]
  }

  /** The columns `toJSON` deletes. */
  const SecretFields: set<string> := {"password", "emailVerificationToken", "passwordResetToken", "passwordResetExpires"}

  /** `toJSON()`: every attribute except the four credential columns, each
      with its value unchanged. */
  function ToJson(u: User): (j: map<string, Attr>)
    ensures j.Keys == Attributes(u).Keys - SecretFields
    ensures forall k :: k in j ==> j[k] == Attributes(u)[k]
    ensures "password" !in j && "passwordResetToken" !in j
    ensures "subscriptionPlan" in j && "subscriptionType" in j && "role" in j
  {
    Attributes(u) - SecretFields
  }

  /** The serialised plan is never "free", "premium" or "business": those
      words live in `subscriptionType`, and the plan column only ever holds
      "monthly", "yearly" or null. */
  lemma SerialisedPlanValues(u: User)
    ensures ToJson(u)["subscriptionPlan"] in {AStr("monthly"), AStr("yearly"), ANull}
    ensures ToJson(u)["subscriptionType"] in {AStr("free"), AStr("premium")}
  {
  }
}
